=== FILE: README.md ===
# LA4Ice record selection, modelled in Dafny

`LA4Ice` lists the overlap records of a DALIGNER `.las` file. It is a variant
of `LAshow` that the ICE isoform clustering step of pbtranscript-tofu uses. The
records are sorted by their a read. The positional arguments after the `.las`
file are read-index ranges (`n`, `b-e`, `b-#`). This project models how
`main` decides which records to list and what the M4-style (`-m`) line
reports for each one:

- **Range parsing** (`range_parse.dfy`). Each token goes through C `strtol`
  semantics: leading white space, an optional sign and the longest digit run.
  The value is clamped to a 64-bit `long`, then wrapped into a 32-bit `int`.
  The parser rejects a leading `#`, a first bound below 1, `b > e`, a second
  `-` and trailing text. The first bad token aborts the run.
- **The selection table `pts`** (`ranges.dfy`, `range_table.dfy`). The pairs
  are sorted by low bound (`qsort` with `ORDER`, which is not stable). A left
  fold merges pairs that overlap or touch. One `INT32_MAX` sentinel closes
  the table. With no ranges the table is `[1, INT32_MAX]`.
- **The forward scan** (`range_scan.dfy`). This is the `(in, npt, idx)` state
  machine driven by the probes `aread + 1`, which never decrease. `idx` only
  moves forward.
- **The shape filters** (`overlaps.dfy`):
  - the non-FALCON dovetail test;
  - the FALCON 1000 bp / `SEED_MIN` test;
  - the complement flip of b's coordinates;
  - the full-length-to-full-length test (`ICE_FL`).
- **The M4 line** (`m4_row.dfy`). This covers the signed overlap-length
  column, the identity, the intervals and the
  `contains`/`contained`/`overlap` label. The same file holds the trace-point
  count `tps`. It is computed at line 410 and again at line 510, and only the
  cartoon and the default listings print it, not the M4 line.
- **The trace buffer** (`trace_buffer.dfy`). This covers its capacity growth
  and the 1- or 2-byte entry width.
- **The record loop as a whole** (`listing.dfy`).

C integer behaviour is written out in `c_int.dfy`:
- the 32-bit two's-complement wrap;
- the clamp of `strtol`;
- division that truncates toward zero.

The option switches `OVERLAP`, `FALCON`, `ICE_FL` and `SEED_MIN` are
parameters. In the program `OVERLAP` is never assigned, and `ICE_FL` is
read from a flag letter that the option parser never sets.

On these points the model follows the code rather than a natural reading of
it:
- **The label.** When b lies within a, the program prints `contains`, not
  `contained`. The label tests use the raw b coordinates, not the flipped
  ones. `Classify` and `ClassifyStrandFree` show that this makes no
  difference.
- **The dovetail filters** use the raw b coordinates. `DovetailIsStrandSensitive`
  shows that these can give a different answer for the same alignment stored
  on the other strand.
- **The trace-point count** is `(aepos-1)/tspace - abpos/tspace` with
  truncating division, not a rounded-up quotient.
- **The sentinel** is a single `INT32_MAX` value, not a pair. With no ranges
  there is no sentinel at all.

## Model

| member | source | states |
|---|---|---|
| CInt.ToInt32 | pbtranscript-tofu/pbtranscript/pbtools/pbtranscript/icedalign/LA4Ice.c:205 | storing `strtol`'s `long` into `int b` keeps it modulo 2^32 in the `int` range, and leaves values already in range unchanged |
| CInt.CDiv | pbtranscript-tofu/pbtranscript/pbtools/pbtranscript/icedalign/LA4Ice.c:410 | C division truncates toward zero for every sign: the remainder `x - q*d` has the sign of the dividend and is smaller in magnitude than the divisor; on non-negative operands it is floor division, and it is 0 whenever the dividend is smaller in magnitude than the divisor |
| CInt.CDivTruncates | pbtranscript-tofu/pbtranscript/pbtools/pbtranscript/icedalign/LA4Ice.c:410 | `-7/2` is `-3` in C where floor division gives `-4`, and `7/-2` and `-7/-2` give `-3` and `3` |
| Ranges.Order | pbtranscript-tofu/pbtranscript/pbtools/pbtranscript/icedalign/LA4Ice.c:61-65 | `ORDER`'s 32-bit difference never wraps on pairs with bounds in `1..INT32_MAX`, so its sign is exactly the order of the two low bounds |
| Ranges.CanonicalUnique | pbtranscript-tofu/pbtranscript/pbtools/pbtranscript/icedalign/LA4Ice.c:239-252 | two sorted, gapped pair lists that select the same read indices are equal, so the merged table is determined by the set of selected indices alone |
| Ranges.PermutationSameCoverage | pbtranscript-tofu/pbtranscript/pbtools/pbtranscript/icedalign/LA4Ice.c:239 | reordering the pairs, as `qsort` does, does not change which indices they cover |
| RangeParse.StrToL | pbtranscript-tofu/pbtranscript/pbtools/pbtranscript/icedalign/LA4Ice.c:205 | the end pointer moves past the start iff a digit follows the blanks and optional sign; then it stops just after that maximal digit run and the value is the run's decimal value, negated after a `-`, clamped to the `long` range; otherwise the end stays at the start and the value is 0 |
| RangeParse.ParseRange | pbtranscript-tofu/pbtranscript/pbtools/pbtranscript/icedalign/LA4Ice.c:198-237 | every accepted token yields a pair with `1 <= b <= e <= INT32_MAX`, and a token starting with `#` is rejected as a range start |
| RangeParse.ParseSingle | pbtranscript-tofu/pbtranscript/pbtools/pbtranscript/icedalign/LA4Ice.c:205-217 | the decimal `n` gives `(n, n)` for `1 <= n <= INT32_MAX`; in general its wrapped 32-bit value is accepted iff at least 1; `0` is rejected as non-positive |
| RangeParse.ParseWrapsToInt32 | pbtranscript-tofu/pbtranscript/pbtools/pbtranscript/icedalign/LA4Ice.c:205-217 | a decimal beyond 32 bits is accepted as the single index `n mod 2^32` when that residue is a positive `int` |
| RangeParse.ParseBounded | pbtranscript-tofu/pbtranscript/pbtools/pbtranscript/icedalign/LA4Ice.c:218-232 | `b-e` gives `(b, e)` when `b <= e` and the empty-range error otherwise |
| RangeParse.ParseOpenEnd | pbtranscript-tofu/pbtranscript/pbtools/pbtranscript/icedalign/LA4Ice.c:218-228 | `b-#` gives `(b, INT32_MAX)` |
| RangeParse.ParseDoubleDash | pbtranscript-tofu/pbtranscript/pbtools/pbtranscript/icedalign/LA4Ice.c:224 | a second `-` after the first bound is rejected as not a range, whatever follows |
| RangeParse.ParseTrailing | pbtranscript-tofu/pbtranscript/pbtools/pbtranscript/icedalign/LA4Ice.c:212-236 | a valid index followed by any character other than a digit, `-` or NUL is rejected as not a range |
| RangeParse.ParseNoDigits | pbtranscript-tofu/pbtranscript/pbtools/pbtranscript/icedalign/LA4Ice.c:205-210 | any token not starting with `#` whose first character after the blanks and optional sign is not a digit (the empty token, `-x`, a bare `+`) is rejected as the non-positive index 0, before the range-shape test |
| RangeParse.ParseSignOnly | pbtranscript-tofu/pbtranscript/pbtools/pbtranscript/icedalign/LA4Ice.c:205-210 | the empty token, a blank then `-x`, and a bare `+` are each rejected as the non-positive index 0 |
| RangeParse.ParseNonPositiveFirst | pbtranscript-tofu/pbtranscript/pbtools/pbtranscript/icedalign/LA4Ice.c:205-210 | a number whose 32-bit value is below 1 followed by any non-digit (so `0-5` among others) is rejected as that non-positive value, before the rest is looked at |
| RangeParse.ParseUpperTrailing | pbtranscript-tofu/pbtranscript/pbtools/pbtranscript/icedalign/LA4Ice.c:218-236 | `b-e` followed by any non-empty text not starting with a digit or NUL (so `5-7x`) is rejected as not a range |
| RangeParse.ParseOpenEndTrailing | pbtranscript-tofu/pbtranscript/pbtools/pbtranscript/icedalign/LA4Ice.c:218-236 | `b-#` followed by any non-empty text not starting with NUL (so `5-#x`) is rejected as not a range |
| RangeParse.ParseAll | pbtranscript-tofu/pbtranscript/pbtools/pbtranscript/icedalign/LA4Ice.c:198-237 | all tokens parse iff the result is a list of valid pairs, one per token in order; otherwise the error is that of the first bad token |
| RangeTable.SortByLow | pbtranscript-tofu/pbtranscript/pbtools/pbtranscript/icedalign/LA4Ice.c:239 | the result is ordered by low bound and is a permutation of the input |
| RangeTable.Merge | pbtranscript-tofu/pbtranscript/pbtools/pbtranscript/icedalign/LA4Ice.c:241-250 | the merged list is canonical: valid pairs with at least one unselected index between neighbours, and no longer than the input |
| RangeTable.MergeCovers | pbtranscript-tofu/pbtranscript/pbtools/pbtranscript/icedalign/LA4Ice.c:241-250 | the merge selects exactly the indices covered by the input pairs |
| RangeTable.AnySortMergesAlike | pbtranscript-tofu/pbtranscript/pbtools/pbtranscript/icedalign/LA4Ice.c:239-250 | any low-sorted permutation the unstable sort may produce merges to the same table |
| RangeTable.MergeIdempotent | pbtranscript-tofu/pbtranscript/pbtools/pbtranscript/icedalign/LA4Ice.c:241-250 | merging an already merged list changes nothing |
| RangeTable.Table | pbtranscript-tofu/pbtranscript/pbtools/pbtranscript/icedalign/LA4Ice.c:239-257 | the table starts at an index of at least 1, is non-decreasing, ends with `INT32_MAX`, and fits the `2*argc` slots allocated for it |
| RangeTable.TableSelects | pbtranscript-tofu/pbtranscript/pbtools/pbtranscript/icedalign/LA4Ice.c:239-257 | an index lies between the bounds of some pair of the table iff some requested range contains it |
| RangeTable.TableOrderIndependent | pbtranscript-tofu/pbtranscript/pbtools/pbtranscript/icedalign/LA4Ice.c:239-252 | range arguments that cover the same indices give the same table, whatever their order or overlap |
| RangeTable.BuildTable | pbtranscript-tofu/pbtranscript/pbtools/pbtranscript/icedalign/LA4Ice.c:188-257 | a table is built iff every token parses, the error is the first bad token's, and no tokens give exactly `[1, INT32_MAX]` |
| RangeTable.BuildTableSelects | pbtranscript-tofu/pbtranscript/pbtools/pbtranscript/icedalign/LA4Ice.c:193-257 | the built table selects an index iff a token's range contains it, or, with no tokens, iff it is in `1..INT32_MAX` |
| RangeScan.Start | pbtranscript-tofu/pbtranscript/pbtools/pbtranscript/icedalign/LA4Ice.c:318-320 | the initial state is consistent with a probe just below the table's first bound |
| RangeScan.Advance | pbtranscript-tofu/pbtranscript/pbtools/pbtranscript/icedalign/LA4Ice.c:340-361 | after a probe, `in` holds iff the probe lies in some pair of the table; `idx` never decreases nor passes the end of the table |
| RangeScan.LeaveOrStay | pbtranscript-tofu/pbtranscript/pbtools/pbtranscript/icedalign/LA4Ice.c:341-350 | from inside a pair, the loop stops at the pair holding the probe or at the gap just below it, reading only slots of the table |
| RangeScan.EnterOrStay | pbtranscript-tofu/pbtranscript/pbtools/pbtranscript/icedalign/LA4Ice.c:351-360 | from outside, the loop stops at the pair holding the probe or at the gap just below it, reading only slots of the table |
| RangeScan.ScanProbes | pbtranscript-tofu/pbtranscript/pbtools/pbtranscript/icedalign/LA4Ice.c:318-361 | over a non-decreasing probe sequence, the scan selects exactly the probes that a search of every pair would select |
| RangeScan.SelectReads | pbtranscript-tofu/pbtranscript/pbtools/pbtranscript/icedalign/LA4Ice.c:193-361 | the run fails iff some token does not parse, with the first bad token's error as the table build reports it; otherwise a probe is selected iff a token's range holds it, or with no tokens iff it is at least 1 |
| Overlaps.Reflect | pbtranscript-tofu/pbtranscript/pbtools/pbtranscript/icedalign/LA4Ice.c:383-386 | seeing an interval from the other strand keeps its length |
| Overlaps.ReflectInvolution | pbtranscript-tofu/pbtranscript/pbtools/pbtranscript/icedalign/LA4Ice.c:383-386 | reflecting twice gives the interval back |
| Overlaps.ForwardB | pbtranscript-tofu/pbtranscript/pbtools/pbtranscript/icedalign/LA4Ice.c:382-389 | with the complement bit set, b's interval becomes `(blen-bepos, blen-bbpos)`, otherwise it is unchanged; its length is kept either way |
| Overlaps.OtherStrandInvolution | pbtranscript-tofu/pbtranscript/pbtools/pbtranscript/icedalign/LA4Ice.c:382-389 | restating a record from b's other strand twice gives the record back |
| Overlaps.ForwardBStrandFree | pbtranscript-tofu/pbtranscript/pbtools/pbtranscript/icedalign/LA4Ice.c:382-389 | the flipped b interval is the same for a record and for the same alignment stored on the other strand |
| Overlaps.Filter | pbtranscript-tofu/pbtranscript/pbtools/pbtranscript/icedalign/LA4Ice.c:364-402 | a record is kept iff it passes the dovetail test (without FALCON), the FALCON test (with it) and the full-length test (under `ICE_FL`), each only when its switch is on; each drop reason names a policy that failed |
| Overlaps.FullLengthStrandFree | pbtranscript-tofu/pbtranscript/pbtools/pbtranscript/icedalign/LA4Ice.c:391-401 | the full-length test reads b on its forward strand, so it gives the same answer for either stored strand |
| Overlaps.DovetailIsStrandSensitive | pbtranscript-tofu/pbtranscript/pbtools/pbtranscript/icedalign/LA4Ice.c:364-370 | because the dovetail test reads raw b coordinates, one alignment passes it on one strand and fails it on the other |
| M4Row.TracePoints | pbtranscript-tofu/pbtranscript/pbtools/pbtranscript/icedalign/LA4Ice.c:410-510 | for a non-empty alignment at `abpos >= 0` and a positive spacing, `tps` (computed at line 410, recomputed at line 510 for the cartoon and default listings) is the number of multiples of the trace spacing strictly between `abpos` and `aepos` |
| M4Row.TracePointsEmptyAlignments | pbtranscript-tofu/pbtranscript/pbtools/pbtranscript/icedalign/LA4Ice.c:410 | an empty alignment at 0 has 0 trace points (truncating division), and one sitting on a trace boundary has -1 |
| M4Row.OverlapLength | pbtranscript-tofu/pbtranscript/pbtools/pbtranscript/icedalign/LA4Ice.c:425 | the third column is the negated length of the alignment on b, whichever strand it is on |
| M4Row.IdentityOf | pbtranscript-tofu/pbtranscript/pbtools/pbtranscript/icedalign/LA4Ice.c:423 | the identity is undefined iff the combined span is zero; otherwise its shortfall from 100 times the span is `200 * diffs`, it is 100 with no differences, and at most 100 for a positive span |
| M4Row.IdentityStrandFree | pbtranscript-tofu/pbtranscript/pbtools/pbtranscript/icedalign/LA4Ice.c:382-423 | the raw and flipped b spans agree, so the identity is the same for either stored strand |
| M4Row.Classify | pbtranscript-tofu/pbtranscript/pbtools/pbtranscript/icedalign/LA4Ice.c:428-439 | `contains` iff b is shorter and the alignment covers all of b; `contained` iff a is shorter and it covers all of a; `overlap` iff neither, so the two tests never both hold |
| M4Row.ClassifyStrandFree | pbtranscript-tofu/pbtranscript/pbtools/pbtranscript/icedalign/LA4Ice.c:428-439 | the label is the same with raw or flipped b coordinates, and for either stored strand |
| M4Row.MakeLine | pbtranscript-tofu/pbtranscript/pbtools/pbtranscript/icedalign/LA4Ice.c:423-439 | the line carries both read ids, a's interval, both lengths and the strand as stored, b's interval flipped onto b's forward strand, the label and the identity of the record; that interval lies within b when the stored one does and its length matches the overlap-length column; label and identity do not depend on the stored strand |
| M4Row.WorkedExample | pbtranscript-tofu/pbtranscript/pbtools/pbtranscript/icedalign/LA4Ice.c:423-439 | a 1000 bp end-to-end alignment with 10 differences reads 99% identity and is labelled `overlap` |
| TraceBuffer.Grow | pbtranscript-tofu/pbtranscript/pbtools/pbtranscript/icedalign/LA4Ice.c:329-334 | the capacity never shrinks, always holds the record's trace, is kept iff the trace fits, and otherwise gains at least 100 spare entries and reaches at least 1.2 times the trace plus 98 (`5 * t >= 6 * tlen + 490`) |
| TraceBuffer.TraceFits | pbtranscript-tofu/pbtranscript/pbtools/pbtranscript/icedalign/LA4Ice.c:273-335 | whether the spacing gives 1-byte entries (at most `TRACE_XOVR`) or 2-byte entries, the bytes of a trace fit in the buffer of 16-bit entries once it has been grown for that trace |
| Listing.SelectedMembers | pbtranscript-tofu/pbtranscript/pbtools/pbtranscript/icedalign/LA4Ice.c:324-402 | the listed records are exactly the records whose a read is selected and that pass the filters |
| Listing.ListRecords | pbtranscript-tofu/pbtranscript/pbtools/pbtranscript/icedalign/LA4Ice.c:313-402 | over records sorted by a read, the loop lists exactly the reference selection, in file order; the final capacity held every trace, and stays at the initial 1000 entries when no trace exceeds that |
| Listing.SelectedByTokens | pbtranscript-tofu/pbtranscript/pbtools/pbtranscript/icedalign/LA4Ice.c:193-402 | over a built table, the reference selection holds exactly the records that pass the filters and whose 1-based a read lies in some token's range, or is at least 1 when there are no tokens |
| Listing.List | pbtranscript-tofu/pbtranscript/pbtools/pbtranscript/icedalign/LA4Ice.c:193-402 | the run fails iff some range token is bad, with the first bad token's error as the table build reports it; otherwise the listing is the reference selection over the built table, in file order and with multiplicity, and a record is in it iff it passes the filters and its 1-based a read is in a requested range (without ranges, any read whose 1-based index is at least 1; a record with a negative `aread` is read and left out) |

## Left out

- File input is left out: opening the `.las` file, reading its header, and `Read_Overlap`/`Read_Trace`. Records, `tspace` and trace lengths are inputs. `align.h` is not part of this model, so the binary record layout and the value of `TRACE_XOVR` (a parameter here) are not modelled.
- The sequence database and the alignment services are left out: `Open_DB`, `Trim_DB`, `Load_Read`, `Complement_Seq`, `Compute_Trace_PTS`, `Decompress_TraceTo16`, `Print_Alignment`, `Print_Reference` and `Print_OCartoon`. They are foreign calls.
- Text output is left out: `printf`, `Print_Number` and the error messages. The model returns the selected records, the line fields and typed errors. `exit(1)` becomes an `Err` result.
- M4Row.IdentityOf: the identity is an exact rational. The double-precision evaluation and the `%5.2f` rounding are left out. A zero span, where the program divides by zero in floating point, is `NoSpan`.
- TraceBuffer.Grow: `1.2 * tlen + 100` truncated to `int` is modelled as the exact `(6 * tlen) / 5 + 100`. The binary value of 1.2 can make the program's result differ by one. Every stated property holds for either value.
- The option parser is left out: the `ARG_*` macros and the `-r`/`-a`/`-f` switch. `OVERLAP`, `FALCON`, `ICE_FL` and `SEED_MIN` are parameters, and `DEFAULT_SEED_MIN` holds the default of 8000.
- The commented-out FALCON sequence dump is left out, because it is not compiled.
- `IceQuiverAll.py` is left out. It only builds a command line for tools that are not part of this model.
- `qsort` itself is left out. It is stood in for by an insertion sort, and `AnySortMergesAlike` shows that any ordering by low bound gives the same table.
- Coordinate arithmetic on the record is left out: `aepos - abpos + ...`, `blen - bepos` and `aread + 1` are computed as unbounded integers, with no 32-bit overflow. `ListRecords`, `List`, `SelectReads` and `ScanProbes` require `aread + 1 < INT32_MAX`. For a probe equal to `INT32_MAX` the program does two different things. After an open-ended last range, or with no ranges, it selects the probe. From inside that last pair the `ar > npt` loop (lines 342-349) is never entered. From outside, the `ar >= npt` loop (lines 351-360) enters it at the sentinel. After a bounded last range such as `3-4` (table `[3, 4, INT32_MAX]`), the program reads `pts[3]`, a slot past the sentinel that was never set. From inside the last pair the `ar > npt` loop reads the sentinel and then that slot. From outside, the `ar >= npt` loop finds the probe not below the sentinel and reads the same slot. The model does not describe that read, so `Advance` also requires its probe to be below `INT32_MAX`.
- M4Row.TracePoints divides by `tspace` and requires it to be non-zero. The program reads `tspace` from the file and does not check it.
- Listing.ListRecords and RangeScan.ScanProbes require records sorted by a read. The program relies on `.las` files being sorted this way and does not check it.

=== FILE: c_int.dfy ===
/** C integer semantics the selection code relies on: 32-bit `int`, 64-bit
    `long` (as returned by `strtol`), and division that truncates toward zero. */
module CInt {

  /** `INT32_MAX`: the open end of a `b-#` range and the table's sentinel. */
  const INT32_MAX: int := 0x7fff_ffff
  const INT32_MIN: int := -0x8000_0000
  /** `LONG_MAX` / `LONG_MIN` on an LP64 platform: where `strtol` saturates. */
  const LONG_MAX: int := 0x7fff_ffff_ffff_ffff
  const LONG_MIN: int := -0x8000_0000_0000_0000

  predicate IsInt32(x: int) {
    INT32_MIN <= x <= INT32_MAX
  }

  /** Conversion of a wider integer to a 32-bit `int`: two's-complement
      wrap-around, as the usual C compilers define it. */
  function ToInt32(x: int): (r: int)
    ensures IsInt32(r)
    ensures (r - x) % 0x1_0000_0000 == 0
    ensures IsInt32(x) ==> r == x
  {
    (x - INT32_MIN) % 0x1_0000_0000 + INT32_MIN
  }

  /** The saturation `strtol` applies when the digits overflow a `long`. */
  function ClampLong(x: int): (r: int)
    ensures LONG_MIN <= r <= LONG_MAX
    ensures LONG_MIN <= x <= LONG_MAX ==> r == x
    ensures x > LONG_MAX ==> r == LONG_MAX
    ensures x < LONG_MIN ==> r == LONG_MIN
  {
    if x > LONG_MAX then LONG_MAX else if x < LONG_MIN then LONG_MIN else x
  }

  function Abs(x: int): (a: int)
    ensures a >= 0 && (a == x || a == -x)
  {
    if x < 0 then -x else x
  }

  /** C's `/` on integers: the quotient is truncated toward zero, unlike
      Dafny's Euclidean `/`, so the remainder `x - q * d` takes the sign of
      the dividend and is smaller in magnitude than the divisor. */
  function CDiv(x: int, d: int): (q: int)
    requires d != 0
    ensures x >= 0 && d > 0 ==> q == x / d
    ensures x >= 0 ==> 0 <= x - q * d < Abs(d)
    ensures x < 0 ==> -Abs(d) < x - q * d <= 0
    ensures -Abs(d) < x < Abs(d) ==> q == 0
  {
    SignedQuotient(x, d);
    var m := Abs(x) / Abs(d);
    if (x >= 0) == (d > 0) then m else -m
  }

  /** The magnitude quotient, given the sign of the true quotient, leaves a
      remainder of the dividend's sign. */
  lemma SignedQuotient(x: int, d: int)
    requires d != 0
    ensures var m := Abs(x) / Abs(d);
      var q := if (x >= 0) == (d > 0) then m else -m;
      && (x >= 0 ==> 0 <= x - q * d < Abs(d))
      && (x < 0 ==> -Abs(d) < x - q * d <= 0)
      && (Abs(x) < Abs(d) ==> q == 0)
  {
    var a, b := Abs(x), Abs(d);
    var m, r := a / b, a % b;
    assert a == m * b + r && 0 <= r < b;
    var p := m * b;
    if a < b {
      SmallQuotient(a, b);
    }
    MulSigns(m, b);
    if d > 0 {
      assert m * d == p && (-m) * d == -p;
    } else {
      assert d == -b;
      assert m * d == -p && (-m) * d == p;
    }
  }

  lemma SmallQuotient(a: int, b: int)
    requires 0 <= a < b
    ensures a / b == 0
  {
  }

  lemma MulSigns(m: int, b: int)
    ensures m * -b == -(m * b) && (-m) * b == -(m * b) && (-m) * -b == m * b
  {
  }

  /** Truncation differs from Euclidean division on a negative dividend:
      `-7 / 2` is -3 in C, where Dafny's `/` gives -4. */
  lemma CDivTruncates()
    ensures CDiv(-7, 2) == -3 && -7 / 2 == -4
    ensures CDiv(7, -2) == -3 && CDiv(-7, -2) == 3
  {
  }

  /** A non-negative `long` whose residue modulo 2^32 is a positive 32-bit
      value converts to that residue. */
  lemma ToInt32Residue(n: nat)
    requires 1 <= n % 0x1_0000_0000 <= INT32_MAX
    ensures ToInt32(n) == n % 0x1_0000_0000
  {
    var m := n % 0x1_0000_0000;
    var q := n / 0x1_0000_0000;
    assert n == q * 0x1_0000_0000 + m;
    assert ToInt32(n) == (q * 0x1_0000_0000 + m - INT32_MIN) % 0x1_0000_0000 + INT32_MIN;
  }
}

=== FILE: listing.dfy ===
/** The record loop as a whole: for each record of the `.las` file in order,
    grow the trace buffer, advance the membership scan with `aread + 1`, and
    keep the record when it is selected and passes the shape filters. */
module Listing {
  import opened CInt
  import opened RangeParse
  import opened RangeTable
  import opened RangeScan
  import opened Overlaps
  import opened TraceBuffer

  /** A record is displayed: its a read is requested and no filter drops it. */
  ghost predicate Displayed(pts: seq<int>, opts: Options, o: Overlap) {
    InPts(pts, o.aread + 1) && Filter(opts, o) == Keep
  }

  /** Reference definition: the displayed records, in file order. */
  ghost function Selected(pts: seq<int>, opts: Options, recs: seq<Overlap>): seq<Overlap>
    decreases |recs|
  {
    if |recs| == 0 then []
    else
      var last := recs[|recs| - 1];
      Selected(pts, opts, recs[..|recs| - 1]) + (if Displayed(pts, opts, last) then [last] else [])
  }

  /** The displayed records are exactly the records that pass. */
  lemma {:induction false} SelectedMembers(pts: seq<int>, opts: Options, recs: seq<Overlap>)
    ensures forall o :: o in Selected(pts, opts, recs) <==> o in recs && Displayed(pts, opts, o)
    ensures |Selected(pts, opts, recs)| <= |recs|
    decreases |recs|
  {
    if |recs| > 0 {
      var init := recs[..|recs| - 1];
      SelectedMembers(pts, opts, init);
      assert recs == init + [recs[|recs| - 1]];
    }
  }

  /** The loop over records sorted by a read. Returns the displayed records
      and the final trace capacity, which held every record's trace. */
  method ListRecords(pts: seq<int>, opts: Options, recs: seq<Overlap>) returns (shown: seq<Overlap>, tmax: int)
    requires ScanTable(pts)
    requires forall i :: 0 <= i < |recs| ==> recs[i].aread + 1 < INT32_MAX
    requires forall i, j :: 0 <= i <= j < |recs| ==> recs[i].aread <= recs[j].aread
    ensures shown == Selected(pts, opts, recs)
    ensures INITIAL_CAPACITY <= tmax
    ensures forall i :: 0 <= i < |recs| ==> recs[i].path.tlen <= tmax
    ensures (forall i :: 0 <= i < |recs| ==> recs[i].path.tlen <= INITIAL_CAPACITY) ==> tmax == INITIAL_CAPACITY
  {
    var st := Start(pts);
    ghost var prev := pts[0] - 1;
    if |recs| > 0 && recs[0].aread + 1 < prev {
      prev := recs[0].aread + 1;
    }
    tmax := INITIAL_CAPACITY;
    shown := [];
    var j := 0;
    while j < |recs|
      invariant 0 <= j <= |recs|
      invariant Consistent(pts, st, prev)
      invariant forall k :: j <= k < |recs| ==> prev <= recs[k].aread + 1
      invariant shown == Selected(pts, opts, recs[..j])
      invariant INITIAL_CAPACITY <= tmax
      invariant forall k :: 0 <= k < j ==> recs[k].path.tlen <= tmax
      invariant (forall k :: 0 <= k < j ==> recs[k].path.tlen <= INITIAL_CAPACITY) ==> tmax == INITIAL_CAPACITY
    {
      var o := recs[j];
      tmax := Grow(tmax, o.path.tlen);
      var ar := o.aread + 1;
      st := Advance(pts, st, prev, ar);
      prev := ar;
      if st.inRange && Filter(opts, o) == Keep {
        shown := shown + [o];
      }
      assert recs[..j + 1][..j] == recs[..j];
      j := j + 1;
    }
    assert recs[..j] == recs;
  }

  /** From the range arguments to the listing: the first bad token's error,
      or the records whose a read (1-based) lies in a requested range (any
      read with a non-negative index when no range is given) and that pass
      the filters. */
  method List(toks: seq<string>, opts: Options, recs: seq<Overlap>) returns (r: Result<seq<Overlap>>)
    requires forall i :: 0 <= i < |recs| ==> recs[i].aread + 1 < INT32_MAX
    requires forall i, j :: 0 <= i <= j < |recs| ==> recs[i].aread <= recs[j].aread
    ensures r.Err? <==> exists i :: 0 <= i < |toks| && ParseRange(toks[i]).Err?
    ensures r.Ok? ==> BuildTable(toks).Ok? && r.value == Selected(BuildTable(toks).value, opts, recs)
    ensures r.Ok? ==> forall o :: o in r.value <==>
      && o in recs
      && Filter(opts, o) == Keep
      && (if |toks| == 0 then 1 <= o.aread + 1
          else exists t :: 0 <= t < |toks| && InToken(toks[t], o.aread + 1))
    ensures r.Err? ==> BuildTable(toks).Err? && r.error == BuildTable(toks).error
  {
    var table := BuildTable(toks);
    if table.Err? {
      return Err(table.error);
    }
    var shown, _ := ListRecords(table.value, opts, recs);
    SelectedByTokens(toks, opts, recs);
    return Ok(shown);
  }

  /** The reference selection over a built table, in the tokens' terms. */
  lemma SelectedByTokens(toks: seq<string>, opts: Options, recs: seq<Overlap>)
    requires BuildTable(toks).Ok?
    requires forall i :: 0 <= i < |recs| ==> recs[i].aread + 1 < INT32_MAX
    ensures forall o :: o in Selected(BuildTable(toks).value, opts, recs) <==>
      && o in recs
      && Filter(opts, o) == Keep
      && (if |toks| == 0 then 1 <= o.aread + 1
          else exists t :: 0 <= t < |toks| && InToken(toks[t], o.aread + 1))
  {
    var pts := BuildTable(toks).value;
    SelectedMembers(pts, opts, recs);
    forall o | o in recs
      ensures InPts(pts, o.aread + 1) <==>
        if |toks| == 0 then 1 <= o.aread + 1
        else exists t :: 0 <= t < |toks| && InToken(toks[t], o.aread + 1)
    {
      BuildTableSelects(toks, o.aread + 1);
    }
  }
}

=== FILE: m4_row.dfy ===
/** The fields of the M4-style line (`-m`): the signed overlap-length
    column, the identity percentage, the intervals and the containment label;
    and the trace-point count `tps`, which the cartoon and default listings
    print (the M4 line does not). */
module M4Row {
  import opened CInt
  import O = Overlaps

  /** The last column of the line. */
  datatype Label = Contains | Contained | Overlap

  /** The identity column, or no value when the combined span is zero (the
      program then divides by zero in floating point). */
  datatype Identity = NoSpan | Percent(value: real)

  /** Trace points of an alignment with spacing `tspace`, as the program
      computes it before the M4 line and again for the other listings: `(aepos-1)/tspace - abpos/tspace` in C integer division.
      For a non-empty alignment at `abpos >= 0` this is the number of
      trace-interval boundaries strictly inside `[abpos, aepos]` on a. */
  function TracePoints(o: O.Overlap, tspace: int): (n: int)
    requires tspace != 0
    ensures tspace > 0 && 0 <= o.path.abpos < o.path.aepos ==>
      n == MultiplesBetween(o.path.abpos, o.path.aepos, tspace)
  {
    var n := CDiv(o.path.aepos - 1, tspace) - CDiv(o.path.abpos, tspace);
    if tspace > 0 && 0 <= o.path.abpos < o.path.aepos then
      MultiplesUpTo(o.path.abpos, o.path.aepos, tspace);
      n
    else n
  }

  /** Multiples of `t` strictly between `lo` and `hi`. */
  function MultiplesBetween(lo: int, hi: int, t: int): (n: nat)
    requires t > 0
    decreases hi - lo
  {
    if hi <= lo + 1 then 0
    else MultiplesBetween(lo, hi - 1, t) + (if (hi - 1) % t == 0 then 1 else 0)
  }

  lemma MulAtLeast(a: int, t: int)
    requires a >= 1 && t > 0
    ensures a * t >= t
  {
    assert a * t == (a - 1) * t + t;
  }

  /** Quotient and remainder are the only ones with `0 <= r < t`. */
  lemma DivUnique(n: int, t: int, q: int, r: int)
    requires t > 0 && 0 <= r < t && n == q * t + r
    ensures n / t == q && n % t == r
  {
    var q', r' := n / t, n % t;
    assert q' * t + r' == q * t + r;
    if q' > q {
      assert (q' - q) * t == q' * t - q * t;
      MulAtLeast(q' - q, t);
    } else if q' < q {
      assert (q - q') * t == q * t - q' * t;
      MulAtLeast(q - q', t);
    }
  }

  /** Stepping `n` up by one raises `n / t` exactly when `n` is a multiple. */
  lemma DivStep(n: int, t: int)
    requires n >= 1 && t > 0
    ensures n / t == (n - 1) / t + (if n % t == 0 then 1 else 0)
  {
    var q, r := (n - 1) / t, (n - 1) % t;
    if r == t - 1 {
      DivUnique(n, t, q + 1, 0);
    } else {
      DivUnique(n, t, q, r + 1);
    }
  }

  lemma {:induction false} MultiplesUpTo(lo: int, hi: int, t: int)
    requires t > 0 && 0 <= lo < hi
    ensures MultiplesBetween(lo, hi, t) == (hi - 1) / t - lo / t
    decreases hi - lo
  {
    if hi > lo + 1 {
      MultiplesUpTo(lo, hi - 1, t);
      DivStep(hi - 1, t);
    }
  }

  /** Truncating division matters for an empty alignment at 0 (Euclidean
      division would give -1), and an empty alignment sitting on a trace
      boundary reports -1 trace points. */
  lemma TracePointsEmptyAlignments(o: O.Overlap, tspace: int)
    requires tspace >= 2
    ensures o.path.abpos == 0 && o.path.aepos == 0 ==> TracePoints(o, tspace) == 0
    ensures o.path.abpos == tspace && o.path.aepos == tspace ==> TracePoints(o, tspace) == -1
  {
    if o.path.abpos == tspace && o.path.aepos == tspace {
      DivUnique(tspace - 1, tspace, 0, tspace - 1);
      DivUnique(tspace, tspace, 1, 0);
    }
  }

  /** The third column, `bbpos - bepos` on b's forward strand: the negated
      length of the alignment on b, whatever the strand. */
  function OverlapLength(o: O.Overlap): (n: int)
    ensures n == -(o.path.bepos - o.path.bbpos)
  {
    var b := O.ForwardB(o);
    b.0 - b.1
  }

  /** Sum of the alignment's lengths on a and on b (raw b coordinates). */
  function IdentitySpan(o: O.Overlap): int {
    o.path.aepos - o.path.abpos + o.path.bepos - o.path.bbpos
  }

  /** `100 - 200 * diffs / span`: the percentage of the mean aligned length
      that is not a difference. */
  function IdentityOf(o: O.Overlap): (id: Identity)
    ensures id.NoSpan? <==> IdentitySpan(o) == 0
    ensures id.Percent? ==> (100.0 - id.value) * (IdentitySpan(o) as real) == 200.0 * (o.path.diffs as real)
    ensures id.Percent? && o.path.diffs == 0 ==> id.value == 100.0
    ensures id.Percent? && IdentitySpan(o) > 0 && o.path.diffs >= 0 ==> id.value <= 100.0
  {
    var span := IdentitySpan(o);
    if span == 0 then NoSpan
    else Percent(100.0 - (200.0 * (o.path.diffs as real)) / (span as real))
  }

  /** The identity uses the raw b coordinates, which give the same span as
      the forward-strand ones: it is the same for either strand. */
  lemma IdentityStrandFree(o: O.Overlap)
    ensures IdentitySpan(o) == (o.path.aepos - o.path.abpos) + (O.ForwardB(o).1 - O.ForwardB(o).0)
    ensures IdentityOf(O.OtherStrand(o)) == IdentityOf(o)
  {
    assert IdentitySpan(O.OtherStrand(o)) == IdentitySpan(o);
  }

  /** The alignment covers all of b: it starts at or before b's first base
      and ends at or after its last. */
  predicate CoversB(o: O.Overlap) {
    o.path.bbpos <= 0 && o.blen <= o.path.bepos
  }

  predicate CoversA(o: O.Overlap) {
    o.path.abpos <= 0 && o.alen <= o.path.aepos
  }

  /** The label, decided as the program does: the b-in-a test first, on the
      raw b coordinates; it prints "contains" for it. */
  function Classify(o: O.Overlap): (l: Label)
    ensures l == Contains <==> o.blen < o.alen && CoversB(o)
    ensures l == Contained <==> o.alen < o.blen && CoversA(o)
    ensures l == Overlap <==> !(o.blen < o.alen && CoversB(o)) && !(o.alen < o.blen && CoversA(o))
  {
    if o.blen < o.alen && o.path.bbpos < 1 && o.blen - o.path.bepos < 1 then Contains
    else if o.alen < o.blen && o.path.abpos < 1 && o.alen - o.path.aepos < 1 then Contained
    else Overlap
  }

  /** The label is the same whether the raw or the flipped b coordinates are
      examined, and so for the record stored on either strand. */
  lemma ClassifyStrandFree(o: O.Overlap)
    ensures Classify(O.OtherStrand(o)) == Classify(o)
    ensures var b := O.ForwardB(o);
      Classify(o.(path := o.path.(bbpos := b.0, bepos := b.1))) == Classify(o)
  {
  }

  /** One M4 line: 0-based read ids, overlap length, identity, the a
      interval, the strand, the b interval on b's forward strand, the label. */
  datatype Line = Line(
    aread: int, bread: int, ovlLen: int, identity: Identity,
    abpos: int, aepos: int, alen: int,
    comp: bool, bbpos: int, bepos: int, blen: int,
    kind: Label)

  /** The line for one record: a's interval, both lengths and the strand as
      stored, b's interval on b's forward strand. */
  function MakeLine(o: O.Overlap): (l: Line)
    ensures l.aread == o.aread && l.bread == o.bread
    ensures l.abpos == o.path.abpos && l.aepos == o.path.aepos
    ensures l.alen == o.alen && l.blen == o.blen && l.comp == o.comp
    ensures (l.bbpos, l.bepos) == O.ForwardB(o)
    ensures l.kind == Classify(o) && l.identity == IdentityOf(o)
    ensures l.ovlLen == l.bbpos - l.bepos == o.path.bbpos - o.path.bepos
    ensures 0 <= o.path.bbpos <= o.path.bepos <= o.blen ==> 0 <= l.bbpos <= l.bepos <= l.blen
    ensures !o.comp ==> l.bbpos == o.path.bbpos && l.bepos == o.path.bepos
    ensures l.kind == Classify(O.OtherStrand(o))
    ensures l.identity == IdentityOf(O.OtherStrand(o))
  {
    ClassifyStrandFree(o);
    IdentityStrandFree(o);
    var b := O.ForwardB(o);
    Line(o.aread, o.bread, OverlapLength(o), IdentityOf(o),
         o.path.abpos, o.path.aepos, o.alen,
         o.comp, b.0, b.1, o.blen,
         Classify(o))
  }

  /** A 1000 bp read aligned end to end to another 1000 bp read with 10
      differences reads 99% identity and is labelled an overlap. */
  lemma WorkedExample()
    ensures var o := O.Overlap(0, 1, 1000, 1000, false, O.Path(0, 1000, 0, 1000, 10, 0));
      IdentityOf(o) == Percent(99.0) && Classify(o) == Overlap
  {
  }
}

=== FILE: overlaps.dfy ===
/** One overlap record of a `.las` file and the geometric tests the record
    loop applies after range selection. Coordinates are read positions;
    `comp` is the complement bit of the record's flags (b aligned on its
    reverse strand, its coordinates given on that strand). */
module Overlaps {

  datatype Path = Path(abpos: int, aepos: int, bbpos: int, bepos: int, diffs: int, tlen: int)

  datatype Overlap = Overlap(aread: int, bread: int, alen: int, blen: int, comp: bool, path: Path)

  /** The switches of the record loop. `OVERLAP` is never assigned in the
      program and `ICE_FL` is read from a flag letter the option parser never
      sets, so all of them are inputs here. */
  datatype Options = Options(overlap: bool, falcon: bool, iceFl: bool, seedMin: int)

  /** `SEED_MIN` unless `-H` sets it. */
  const DEFAULT_SEED_MIN: int := 8000

  /** Tolerances of the FALCON dovetail test and the full-length test. */
  const FALCON_SLACK: int := 1000
  const FL_BEGIN_SLACK: int := 200
  const FL_END_SLACK: int := 50

  /** The b interval `[bb, be]` of a read of length `blen` seen from the
      other strand. */
  function Reflect(blen: int, bb: int, be: int): (r: (int, int))
    ensures r.1 - r.0 == be - bb
  {
    (blen - be, blen - bb)
  }

  lemma ReflectInvolution(blen: int, bb: int, be: int)
    ensures var r := Reflect(blen, bb, be); Reflect(blen, r.0, r.1) == (bb, be)
  {
  }

  /** The b coordinates used by the full-length test and the M4 row: on the
      forward strand of b (the COMP flip). */
  function ForwardB(o: Overlap): (r: (int, int))
    ensures r.1 - r.0 == o.path.bepos - o.path.bbpos
    ensures !o.comp ==> r == (o.path.bbpos, o.path.bepos)
    ensures o.comp ==> r.0 == o.blen - o.path.bepos && r.1 == o.blen - o.path.bbpos
  {
    if o.comp then Reflect(o.blen, o.path.bbpos, o.path.bepos)
    else (o.path.bbpos, o.path.bepos)
  }

  /** The same alignment described from b's other strand: complement bit
      toggled and the b interval reflected. */
  function OtherStrand(o: Overlap): (r: Overlap)
    ensures r.comp != o.comp
    ensures r.aread == o.aread && r.bread == o.bread && r.alen == o.alen && r.blen == o.blen
    ensures r.path.abpos == o.path.abpos && r.path.aepos == o.path.aepos
    ensures r.path.bepos - r.path.bbpos == o.path.bepos - o.path.bbpos
  {
    var b := Reflect(o.blen, o.path.bbpos, o.path.bepos);
    o.(comp := !o.comp, path := o.path.(bbpos := b.0, bepos := b.1))
  }

  /** Describing a record from the other strand twice gives it back. */
  lemma OtherStrandInvolution(o: Overlap)
    ensures OtherStrand(OtherStrand(o)) == o
  {
    ReflectInvolution(o.blen, o.path.bbpos, o.path.bepos);
  }

  /** The forward-strand b interval is a property of the alignment, not of
      the strand it is stored on. */
  lemma ForwardBStrandFree(o: Overlap)
    ensures ForwardB(OtherStrand(o)) == ForwardB(o)
  {
  }

  /** Non-FALCON dovetail shape: the alignment starts at the start of a or
      of b, and ends at the end of a or of b (raw b coordinates). */
  predicate Dovetail(o: Overlap) {
    && (o.path.abpos == 0 || o.path.bbpos == 0)
    && (o.path.aepos == o.alen || o.path.bepos == o.blen)
  }

  /** FALCON shape: within 1000 bp of the start of a or of b, within 1000 bp
      of the end of a or of b (raw b coordinates), and a at least `seedMin`
      long. */
  predicate FalconDovetail(o: Overlap, seedMin: int) {
    && (o.path.abpos <= FALCON_SLACK || o.path.bbpos <= FALCON_SLACK)
    && (o.alen - o.path.aepos <= FALCON_SLACK || o.blen - o.path.bepos <= FALCON_SLACK)
    && seedMin <= o.alen
  }

  /** Full-length to full-length: begins within 200 bp of the start and ends
      within 50 bp of the end of both reads, b on its forward strand. */
  predicate FullLength(o: Overlap) {
    var b := ForwardB(o);
    && o.path.abpos <= FL_BEGIN_SLACK
    && b.0 <= FL_BEGIN_SLACK
    && o.alen - o.path.aepos <= FL_END_SLACK
    && o.blen - b.1 <= FL_END_SLACK
  }

  /** Which `continue` of the record loop dropped the record. */
  datatype Verdict =
    | Keep
    | OpenBegin     // OVERLAP, not FALCON: neither begin at 0
    | OpenEnd       // OVERLAP, not FALCON: neither end at the read end
    | FarBegins     // OVERLAP and FALCON: both begins beyond 1000
    | FarEnds       // OVERLAP and FALCON: both end gaps beyond 1000
    | ShortSeed     // OVERLAP and FALCON: a shorter than SEED_MIN
    | NotFullLength // ICE_FL: one of the full-length tests fails

  /** The tests after range selection, in source order, each rejecting on
      the first failing condition. */
  function Filter(opts: Options, o: Overlap): (v: Verdict)
    ensures v == Keep <==>
      && (opts.overlap && !opts.falcon ==> Dovetail(o))
      && (opts.overlap && opts.falcon ==> FalconDovetail(o, opts.seedMin))
      && (opts.iceFl ==> FullLength(o))
    ensures v in {OpenBegin, OpenEnd} ==> opts.overlap && !opts.falcon && !Dovetail(o)
    ensures v in {FarBegins, FarEnds, ShortSeed} ==>
      opts.overlap && opts.falcon && !FalconDovetail(o, opts.seedMin)
    ensures v == NotFullLength ==> opts.iceFl && !FullLength(o)
  {
    var p := o.path;
    if opts.overlap && !opts.falcon && p.abpos != 0 && p.bbpos != 0 then OpenBegin
    else if opts.overlap && !opts.falcon && p.aepos != o.alen && p.bepos != o.blen then OpenEnd
    else if opts.overlap && opts.falcon && p.abpos > FALCON_SLACK && p.bbpos > FALCON_SLACK then FarBegins
    else if opts.overlap && opts.falcon && o.alen - p.aepos > FALCON_SLACK && o.blen - p.bepos > FALCON_SLACK then FarEnds
    else if opts.overlap && opts.falcon && o.alen < opts.seedMin then ShortSeed
    else
      var b := ForwardB(o);
      if opts.iceFl && (p.abpos > FL_BEGIN_SLACK || b.0 > FL_BEGIN_SLACK) then NotFullLength
      else if opts.iceFl && p.aepos + FL_END_SLACK < o.alen then NotFullLength
      else if opts.iceFl && b.1 + FL_END_SLACK < o.blen then NotFullLength
      else Keep
  }

  /** The full-length test looks at b on its forward strand only, so it does
      not depend on which strand the record is stored on. */
  lemma FullLengthStrandFree(o: Overlap)
    ensures FullLength(OtherStrand(o)) == FullLength(o)
  {
    ForwardBStrandFree(o);
  }

  /** The dovetail tests use the raw b coordinates: the same alignment stored
      on the other strand can get a different answer. */
  lemma DovetailIsStrandSensitive()
    ensures var o := Overlap(0, 1, 1000, 1000, true, Path(100, 1000, 0, 900, 0, 0));
      Dovetail(o) && !Dovetail(OtherStrand(o))
  {
  }

  /** An alignment starting 300 bp into a is never kept under ICE_FL,
      whatever else holds. */
  lemma FullLengthRejectsLateStart(o: Overlap, opts: Options)
    requires opts.iceFl && o.path.abpos == 300
    ensures Filter(opts, o) != Keep
  {
  }
}

=== FILE: range_parse.dfy ===
/** The read-range arguments of LA4Ice: each positional token after the `.las`
    file is `n`, `b-e` or `b-#`, read with `strtol` and stored as an inclusive
    pair. Tokens are C strings: reading at or past the end yields NUL. */
module RangeParse {
  import opened CInt
  import opened Ranges

  /** Why a token was refused; each is a distinct diagnostic followed by exit(1). */
  datatype RangeError =
    | HashStart          // '#' as the first character
    | NonPositive(b: int) // first bound below 1 (also: no digits at all)
    | EmptyRange         // b > e
    | NotARange          // anything else that is not `n`, `b-e` or `b-#`

  datatype Result<T> = Ok(value: T) | Err(error: RangeError)

  /** What `strtol` returns: the value and the index `endptr` points at. */
  datatype Parsed = Parsed(value: int, end: nat)

  /** The character at index `i` of a C string. */
  function Peek(s: string, i: nat): char {
    if i < |s| then s[i] else '\0'
  }

  predicate IsDigit(c: char) {
    '0' <= c <= '9'
  }

  /** `isspace` in the C locale. */
  predicate IsSpace(c: char) {
    c == ' ' || c == '\t' || c == '\n' || c == '\U{000B}' || c == '\U{000C}' || c == '\r'
  }

  function SkipSpaces(s: string, i: nat): (j: nat)
    requires i <= |s|
    ensures i <= j <= |s|
    ensures !IsSpace(Peek(s, j))
    ensures forall k :: i <= k < j ==> IsSpace(s[k])
    decreases |s| - i
  {
    if IsSpace(Peek(s, i)) then SkipSpaces(s, i + 1) else i
  }

  /** End of the maximal run of decimal digits starting at `i`. */
  function DigitsEnd(s: string, i: nat): (j: nat)
    requires i <= |s|
    ensures i <= j <= |s|
    ensures !IsDigit(Peek(s, j))
    ensures forall k :: i <= k < j ==> IsDigit(s[k])
    decreases |s| - i
  {
    if IsDigit(Peek(s, i)) then DigitsEnd(s, i + 1) else i
  }

  predicate AllDigits(ds: string) {
    forall k :: 0 <= k < |ds| ==> IsDigit(ds[k])
  }

  /** The number a string of decimal digits denotes. */
  function DigitsValue(ds: string): (v: nat)
    requires AllDigits(ds)
  {
    if |ds| == 0 then 0
    else
      var c := ds[|ds| - 1];
      assert IsDigit(c);
      DigitsValue(ds[..|ds| - 1]) * 10 + (c as int - '0' as int)
  }

  /** Where the digits of `strtol` would start: after the white space and
      one optional sign. */
  function SignEnd(s: string, i: nat): (k: nat)
    requires i <= |s|
    ensures SkipSpaces(s, i) <= k <= |s|
  {
    var j := SkipSpaces(s, i);
    if Peek(s, j) == '-' || Peek(s, j) == '+' then j + 1 else j
  }

  /** The sign `strtol` reads is a minus. */
  predicate Negative(s: string, i: nat)
    requires i <= |s|
  {
    Peek(s, SkipSpaces(s, i)) == '-'
  }

  /** `strtol(s + i, &end, 10)`: optional white space and sign, then the
      longest run of digits; saturates at the `long` bounds; with no digits
      the value is 0 and `end` is `i` itself. */
  function StrToL(s: string, i: nat): (p: Parsed)
    requires i <= |s|
    ensures p.end == i || i < p.end <= |s|
    ensures LONG_MIN <= p.value <= LONG_MAX
    ensures p.end > i <==> IsDigit(Peek(s, SignEnd(s, i)))
    ensures p.end == i ==> p.value == 0
    ensures p.end > i ==>
      && SignEnd(s, i) < p.end
      && AllDigits(s[SignEnd(s, i)..p.end])
      && !IsDigit(Peek(s, p.end))
      && var v: int := DigitsValue(s[SignEnd(s, i)..p.end]);
         p.value == ClampLong(if Negative(s, i) then -v else v)
  {
    var k := SignEnd(s, i);
    var d := DigitsEnd(s, k);
    if d == k then Parsed(0, i)
    else
      assert forall m :: 0 <= m < d - k ==> s[k..d][m] == s[k + m];
      var v := DigitsValue(s[k..d]);
      Parsed(ClampLong(if Negative(s, i) then -(v as int) else v), d)
  }

  /** One range token, following the branches of the argument loop in order:
      '#' first; `b = strtol(...)` and `b < 1`; then a lone number, or `-`
      followed by `#` or a second number with nothing after it and no second
      `-`; finally `b > e`. Both bounds are narrowed to a 32-bit `int`. */
  function ParseRange(tok: string): (r: Result<Range>)
    ensures r.Ok? ==> ValidRange(r.value)
    ensures Peek(tok, 0) == '#' ==> r == Err(HashStart)
  {
    if Peek(tok, 0) == '#' then Err(HashStart)
    else
      var p := StrToL(tok, 0);
      var b := ToInt32(p.value);
      if b < 1 then Err(NonPositive(b))
      else if p.end > 0 then
        if Peek(tok, p.end) == '\0' then Ok(Range(b, b))
        else if Peek(tok, p.end) == '-' then ParseUpper(tok, b, p.end)
        else Err(NotARange)
      else Err(NotARange)
  }

  /** The part after the `-` at index `dash`, for a first bound `b >= 1`. */
  function ParseUpper(tok: string, b: int, dash: nat): (r: Result<Range>)
    requires 1 <= b && dash < |tok|
    ensures r.Ok? ==> ValidRange(r.value) && r.value.low == b
  {
    var q := UpperBound(tok, dash);
    var e := ToInt32(q.value);
    if q.end > dash + 1 && Peek(tok, q.end) == '\0' && Peek(tok, dash + 1) != '-' then
      if b > e then Err(EmptyRange) else Ok(Range(b, e))
    else Err(NotARange)
  }

  /** `#` right after the dash stands for INT32_MAX and is one character
      long; otherwise the second bound is read with `strtol`. */
  function UpperBound(tok: string, dash: nat): (q: Parsed)
    requires dash < |tok|
  {
    if Peek(tok, dash + 1) == '#' then Parsed(INT32_MAX, dash + 2)
    else StrToL(tok, dash + 1)
  }

  /** The decimal digit for `d`. */
  function DigitChar(d: nat): (c: char)
    requires d < 10
    ensures IsDigit(c) && c as int - '0' as int == d
  {
    ('0' as int + d) as char
  }

  /** Canonical decimal spelling of `n`, no sign and no leading zeros. */
  function Decimal(n: nat): (ds: string)
    ensures |ds| >= 1
    ensures forall k :: 0 <= k < |ds| ==> IsDigit(ds[k])
  {
    if n < 10 then [DigitChar(n)] else Decimal(n / 10) + [DigitChar(n % 10)]
  }

  lemma {:induction false} DecimalValue(n: nat)
    ensures DigitsValue(Decimal(n)) == n
  {
    if n >= 10 {
      var ds := Decimal(n);
      assert ds[..|ds| - 1] == Decimal(n / 10);
      DecimalValue(n / 10);
    }
  }

  lemma {:induction false} DigitsEndRun(s: string, i: nat, j: nat)
    requires i <= j <= |s|
    requires forall k :: i <= k < j ==> IsDigit(s[k])
    requires !IsDigit(Peek(s, j))
    ensures DigitsEnd(s, i) == j
    decreases j - i
  {
    if i < j {
      DigitsEndRun(s, i + 1, j);
    }
  }

  /** `strtol` reads back the decimal spelling of `n` (saturated to a `long`)
      and stops right after it. */
  lemma StrToLDecimal(s: string, i: nat, n: nat)
    requires i + |Decimal(n)| <= |s|
    requires s[i..i + |Decimal(n)|] == Decimal(n)
    requires !IsDigit(Peek(s, i + |Decimal(n)|))
    ensures StrToL(s, i) == Parsed(ClampLong(n), i + |Decimal(n)|)
  {
    var ds := Decimal(n);
    assert s[i] == ds[0];
    assert SkipSpaces(s, i) == i;
    forall k | i <= k < i + |ds|
      ensures IsDigit(s[k])
    {
      assert s[k] == ds[k - i];
    }
    DigitsEndRun(s, i, i + |ds|);
    DecimalValue(n);
  }

  /** A lone number `n`: accepted as `(n, n)` when its 32-bit value is
      positive, otherwise refused as non-positive. In particular "0" is
      refused and every `n` in 1..INT32_MAX reads back as itself. */
  lemma ParseSingle(n: nat)
    ensures var w := ToInt32(ClampLong(n));
      ParseRange(Decimal(n)) == if w >= 1 then Ok(Range(w, w)) else Err(NonPositive(w))
    ensures 1 <= n <= INT32_MAX ==> ParseRange(Decimal(n)) == Ok(Range(n, n))
    ensures ParseRange(Decimal(0)) == Err(NonPositive(0))
  {
    LoneNumber(n);
    LoneToken(Decimal(n), ClampLong(n));
    LoneNumber(0);
    LoneToken(Decimal(0), 0);
  }

  /** `strtol` reads the whole of a lone decimal. */
  lemma LoneNumber(n: nat)
    ensures var ds := Decimal(n);
      Peek(ds, 0) != '#' && StrToL(ds, 0) == Parsed(ClampLong(n), |ds|)
  {
    var ds := Decimal(n);
    assert ds[0..|ds|] == ds;
    StrToLDecimal(ds, 0, n);
  }

  /** A token that `strtol` reads to its end is a single index, or refused
      as non-positive. */
  lemma LoneToken(tok: string, v: int)
    requires 0 < |tok| && Peek(tok, 0) != '#' && StrToL(tok, 0) == Parsed(v, |tok|)
    ensures var w := ToInt32(v);
      ParseRange(tok) == if w >= 1 then Ok(Range(w, w)) else Err(NonPositive(w))
  {
  }

  /** A number too large for 32 bits wraps: any `n` whose residue modulo 2^32
      is a valid index selects that index ("4294967297" selects read 1). */
  lemma ParseWrapsToInt32(n: nat)
    requires n <= LONG_MAX
    requires 1 <= n % 0x1_0000_0000 <= INT32_MAX
    ensures ParseRange(Decimal(n)) == Ok(Range(n % 0x1_0000_0000, n % 0x1_0000_0000))
  {
    ParseSingle(n);
    ToInt32Residue(n);
  }

  /** `b-e` is the pair `(b, e)` when `b <= e` and an empty range otherwise. */
  lemma ParseBounded(b: nat, e: nat)
    requires 1 <= b <= INT32_MAX && e <= INT32_MAX
    ensures ParseRange(Decimal(b) + "-" + Decimal(e))
         == if b <= e then Ok(Range(b, e)) else Err(EmptyRange)
  {
    var db := Decimal(b);
    var tok := db + "-" + Decimal(e);
    NumberAt(db + "-", e);
    NumberThen(b, tok);
    DashToken(tok, b, e, |db|);
  }

  /** A token that starts with the decimal `n` followed by a non-digit: the
      first `strtol` stops right after the number. */
  lemma NumberThen(n: nat, tok: string)
    requires |Decimal(n)| < |tok| && tok[..|Decimal(n)|] == Decimal(n)
    requires !IsDigit(tok[|Decimal(n)|])
    ensures Peek(tok, 0) != '#'
    ensures StrToL(tok, 0) == Parsed(ClampLong(n), |Decimal(n)|)
  {
    var dn := Decimal(n);
    assert tok[0..|dn|] == dn;
    assert tok[0] == dn[0];
    StrToLDecimal(tok, 0, n);
  }

  /** A token that ends with the decimal `n` after `pre`: `strtol` from the
      start of the number reads it to the end of the token. */
  lemma NumberAt(pre: string, n: nat)
    ensures var tok := pre + Decimal(n);
      && StrToL(tok, |pre|) == Parsed(ClampLong(n), |tok|)
      && IsDigit(Peek(tok, |pre|))
      && tok[..|pre|] == pre
  {
    var dn := Decimal(n);
    var tok := pre + dn;
    assert tok[|pre|..|pre| + |dn|] == dn;
    assert Peek(tok, |pre| + |dn|) == '\0';
    StrToLDecimal(tok, |pre|, n);
  }

  /** A first bound `b` ended by a dash and a second number `e` running to
      the end of the token. */
  lemma DashToken(tok: string, b: int, e: int, d: nat)
    requires 1 <= b <= INT32_MAX && 0 <= e <= INT32_MAX
    requires Peek(tok, 0) != '#' && StrToL(tok, 0) == Parsed(b, d)
    requires 0 < d && d + 1 < |tok| && tok[d] == '-'
    requires IsDigit(Peek(tok, d + 1)) && StrToL(tok, d + 1) == Parsed(e, |tok|)
    ensures ParseRange(tok) == if b <= e then Ok(Range(b, e)) else Err(EmptyRange)
  {
    assert ParseRange(tok) == ParseUpper(tok, b, d);
  }

  /** `b-#` is the pair `(b, INT32_MAX)`. */
  lemma ParseOpenEnd(b: nat)
    requires 1 <= b <= INT32_MAX
    ensures ParseRange(Decimal(b) + "-#") == Ok(Range(b, INT32_MAX))
  {
    var db := Decimal(b);
    var tok := db + "-#";
    assert tok[0..|db|] == db;
    assert Peek(tok, |db|) == '-';
    assert Peek(tok, |db| + 1) == '#';
    StrToLDecimal(tok, 0, b);
  }

  /** A second `-` right after the first is refused, whatever follows. */
  lemma ParseDoubleDash(b: nat, rest: string)
    requires 1 <= b <= INT32_MAX
    ensures ParseRange(Decimal(b) + "--" + rest) == Err(NotARange)
  {
    var db := Decimal(b);
    var tok := db + "--" + rest;
    assert tok[0..|db|] == db;
    assert Peek(tok, |db|) == '-';
    assert Peek(tok, |db| + 1) == '-';
    StrToLDecimal(tok, 0, b);
  }

  /** A number followed by any character other than a digit, `-` or the
      terminator is refused. */
  lemma ParseTrailing(n: nat, c: char, rest: string)
    requires 1 <= n <= INT32_MAX
    requires !IsDigit(c) && c != '-' && c != '\0'
    ensures ParseRange(Decimal(n) + [c] + rest) == Err(NotARange)
  {
    var dn := Decimal(n);
    var tok := dn + [c] + rest;
    assert tok[0..|dn|] == dn;
    assert Peek(tok, |dn|) == c;
    StrToLDecimal(tok, 0, n);
  }

  /** A token where `strtol` finds no number, after any blanks and one
      sign, is reported as the non-positive index 0: the `b < 1` test comes
      before the "not an integer range" one. */
  lemma ParseNoDigits(tok: string)
    requires Peek(tok, 0) != '#' && !IsDigit(Peek(tok, SignEnd(tok, 0)))
    ensures ParseRange(tok) == Err(NonPositive(0))
  {
  }

  /** Blanks and a sign with no digits, and the empty token, are such tokens. */
  lemma ParseSignOnly()
    ensures ParseRange("") == Err(NonPositive(0))
    ensures ParseRange(" -x") == Err(NonPositive(0))
    ensures ParseRange("+") == Err(NonPositive(0))
  {
    assert SkipSpaces(" -x", 0) == 1 by {
      assert SkipSpaces(" -x", 1) == 1;
    }
    ParseNoDigits(" -x");
    ParseNoDigits("+");
  }

  /** A first bound whose 32-bit value is below 1 refuses the token as
      non-positive whatever follows it: "0-5" is refused, not read as a range. */
  lemma ParseNonPositiveFirst(n: nat, rest: string)
    requires |rest| > 0 && !IsDigit(rest[0])
    requires ToInt32(ClampLong(n)) < 1
    ensures ParseRange(Decimal(n) + rest) == Err(NonPositive(ToInt32(ClampLong(n))))
  {
    NumberThen(n, Decimal(n) + rest);
  }

  /** Text after the second number is refused: "5-7x" is not a range. */
  lemma ParseUpperTrailing(b: nat, e: nat, post: string)
    requires 1 <= b <= INT32_MAX
    requires |post| > 0 && !IsDigit(post[0]) && post[0] != '\0'
    ensures ParseRange(Decimal(b) + "-" + Decimal(e) + post) == Err(NotARange)
  {
    DashRoute(b, e, post);
    UpperTrailing(b, e, post);
  }

  /** `b-e...`: the first bound is read and the rest goes to the upper-bound
      branch. */
  lemma DashRoute(b: nat, e: nat, post: string)
    requires 1 <= b <= INT32_MAX
    ensures var tok := Decimal(b) + "-" + Decimal(e) + post;
      ParseRange(tok) == ParseUpper(tok, b, |Decimal(b)|)
  {
    SliceMiddle(Decimal(b) + "-", Decimal(e), post);
    DashRouteAt(b, Decimal(b) + "-" + Decimal(e) + post);
  }

  lemma DashRouteAt(b: nat, tok: string)
    requires 1 <= b <= INT32_MAX
    requires |Decimal(b)| + 1 < |tok| && tok[..|Decimal(b)| + 1] == Decimal(b) + "-"
    ensures ParseRange(tok) == ParseUpper(tok, b, |Decimal(b)|)
  {
    FirstBoundDash(b, tok);
    assert ClampLong(b) == b;
  }

  /** After `b-`, a second number followed by text is not a range. */
  lemma UpperTrailing(b: nat, e: nat, post: string)
    requires 1 <= b
    requires |post| > 0 && !IsDigit(post[0]) && post[0] != '\0'
    ensures var tok := Decimal(b) + "-" + Decimal(e) + post;
      |Decimal(b)| < |tok| && ParseUpper(tok, b, |Decimal(b)|) == Err(NotARange)
  {
    var db := Decimal(b);
    SecondBoundThen(db + "-", e, post);
    assert |db + "-"| - 1 == |db|;
  }

  /** The second number of `pre + Decimal(e) + post`, read after the dash
      that ends `pre`, stops at the first character of `post`. */
  lemma SecondBoundThen(pre: string, e: nat, post: string)
    requires |pre| >= 1 && |post| > 0 && !IsDigit(post[0])
    ensures var tok := pre + Decimal(e) + post;
      var end := |pre| + |Decimal(e)|;
      && end < |tok| && tok[..|pre|] == pre
      && UpperBound(tok, |pre| - 1).end == end && Peek(tok, end) == post[0]
  {
    NumberIn(pre, e, post);
  }

  /** A token that starts with the decimal `b` and a dash: `strtol` reads
      `b` and stops on the dash. */
  lemma FirstBoundDash(b: nat, tok: string)
    requires |Decimal(b)| + 1 < |tok| && tok[..|Decimal(b)| + 1] == Decimal(b) + "-"
    ensures Peek(tok, 0) != '#' && tok[|Decimal(b)|] == '-'
    ensures StrToL(tok, 0) == Parsed(ClampLong(b), |Decimal(b)|)
  {
    DashPrefix(Decimal(b), tok);
    NumberThen(b, tok);
  }

  /** A token that starts with `pre` and a dash has the dash right after `pre`. */
  lemma DashPrefix(pre: string, tok: string)
    requires |pre| + 1 <= |tok| && tok[..|pre| + 1] == pre + "-"
    ensures tok[..|pre|] == pre && tok[|pre|] == '-'
  {
    assert tok[..|pre|] == (pre + "-")[..|pre|];
    assert tok[|pre|] == (pre + "-")[|pre|];
  }

  /** Text after `#` is refused, even a digit: "5-#x" and "5-#3" are not
      ranges. */
  lemma ParseOpenEndTrailing(b: nat, post: string)
    requires 1 <= b <= INT32_MAX
    requires |post| > 0 && post[0] != '\0'
    ensures ParseRange(Decimal(b) + "-#" + post) == Err(NotARange)
  {
    var db := Decimal(b);
    var tok := db + "-#" + post;
    assert tok[..|db|] == db && tok[|db|] == '-' && tok[|db| + 1] == '#' && tok[|db| + 2] == post[0];
    NumberThen(b, tok);
    assert ParseRange(tok) == ParseUpper(tok, b, |db|);
  }

  /** The decimal `n` between `pre` and a `post` that does not start with a
      digit: `strtol` from the start of the number stops right after it. */
  lemma NumberIn(pre: string, n: nat, post: string)
    requires |post| > 0 && !IsDigit(post[0])
    ensures var tok := pre + Decimal(n) + post;
      && StrToL(tok, |pre|) == Parsed(ClampLong(n), |pre| + |Decimal(n)|)
      && IsDigit(Peek(tok, |pre|))
      && Peek(tok, |pre| + |Decimal(n)|) == post[0]
      && tok[..|pre|] == pre
  {
    var dn := Decimal(n);
    var tok := pre + dn + post;
    SliceMiddle(pre, dn, post);
    StrToLDecimal(tok, |pre|, n);
  }

  /** The three parts of a concatenation, read back by slicing. */
  lemma SliceMiddle(a: string, b: string, c: string)
    ensures (a + b + c)[..|a|] == a
    ensures (a + b + c)[|a|..|a| + |b|] == b
    ensures |c| > 0 ==> Peek(a + b + c, |a| + |b|) == c[0]
  {
  }

  /** All range tokens in argument order; the first refused token aborts
      the run with its diagnostic. */
  function ParseAll(toks: seq<string>): (r: Result<seq<Range>>)
    ensures r.Ok? ==> |r.value| == |toks| && AllValid(r.value)
    ensures r.Ok? ==> forall i :: 0 <= i < |toks| ==> ParseRange(toks[i]) == Ok(r.value[i])
    ensures r.Ok? <==> forall i :: 0 <= i < |toks| ==> ParseRange(toks[i]).Ok?
    ensures r.Err? ==> exists i :: && 0 <= i < |toks|
                                   && ParseRange(toks[i]) == Err(r.error)
                                   && forall j :: 0 <= j < i ==> ParseRange(toks[j]).Ok?
  {
    if |toks| == 0 then Ok([])
    else
      match ParseRange(toks[0])
      case Err(e) => Err(e)
      case Ok(first) =>
        match ParseAll(toks[1..])
        case Err(e) =>
          assert forall i :: 1 <= i < |toks| ==> toks[1..][i - 1] == toks[i];
          Err(e)
        case Ok(rest) =>
          assert forall i :: 1 <= i < |toks| ==> toks[1..][i - 1] == toks[i];
          Ok([first] + rest)
  }
}

=== FILE: range_scan.dfy ===
/** The forward membership scan over `pts`: state `(in, npt, idx)` driven by
    the probes `ar = aread + 1`, which arrive in non-decreasing order. `idx`
    only moves forward, so a whole run costs O(|pts|) steps in total. */
module RangeScan {
  import opened CInt
  import opened RangeParse
  import opened RangeTable

  /** `in`: the last probe was selected; `npt`: the table value the next
      probe is compared with (`pts[idx-1]`); `idx`: the next slot to read. */
  datatype Scan = Scan(inRange: bool, npt: int, idx: nat)

  /** `in = 0, npt = pts[0], idx = 1`. */
  function Start(pts: seq<int>): (st: Scan)
    requires ScanTable(pts)
    ensures Consistent(pts, st, pts[0] - 1)
  {
    Scan(false, pts[0], 1)
  }

  /** The state after a probe `p`. Inside: `npt` is the high bound of the
      pair holding `p`. Outside: `npt` is the low bound of the first pair
      above `p`, and the pair before it ends below `p`. */
  ghost predicate Consistent(pts: seq<int>, st: Scan, p: int) {
    && 1 <= st.idx <= |pts|
    && st.npt == pts[st.idx - 1]
    && if st.inRange then
         && st.idx % 2 == 0
         && pts[st.idx - 2] <= p <= st.npt
       else
         && st.idx % 2 == 1
         && p < st.npt
         && (st.idx >= 3 ==> pts[st.idx - 2] < p)
  }

  /** One probe, as the two `while` loops of the record loop do it. */
  method Advance(pts: seq<int>, st: Scan, ghost prev: int, ar: int) returns (next: Scan)
    requires ScanTable(pts)
    requires Consistent(pts, st, prev)
    requires prev <= ar < INT32_MAX
    ensures next.inRange <==> InPts(pts, ar)
    ensures Consistent(pts, next, ar)
    ensures st.idx <= next.idx <= |pts|
  {
    if st.inRange {
      next := LeaveOrStay(pts, st, ar);
    } else {
      next := EnterOrStay(pts, st, ar);
    }
    if next.inRange {
      Hit(pts, next.idx - 2, ar);
    } else {
      Miss(pts, next.idx - 1, ar);
    }
  }

  /** The loop taken while inside a pair: skip pairs ending below `ar`. */
  method LeaveOrStay(pts: seq<int>, st: Scan, ar: int) returns (next: Scan)
    requires ScanTable(pts) && ar < INT32_MAX
    requires st.inRange && 2 <= st.idx <= |pts| && st.idx % 2 == 0
    requires st.npt == pts[st.idx - 1] && pts[st.idx - 2] <= ar
    ensures Consistent(pts, next, ar)
    ensures st.idx <= next.idx
  {
    var inr, npt, idx := true, st.npt, st.idx;
    while ar > npt
      invariant st.idx <= idx <= |pts|
      invariant idx % 2 == 0 && npt == pts[idx - 1]
      invariant pts[idx - 2] <= ar
      decreases |pts| - idx
    {
      npt := pts[idx];
      idx := idx + 1;
      if ar < npt {
        inr := false;
        break;
      }
      npt := pts[idx];
      idx := idx + 1;
    }
    next := Scan(inr, npt, idx);
  }

  /** The loop taken while outside: find the first pair not ending below `ar`. */
  method EnterOrStay(pts: seq<int>, st: Scan, ar: int) returns (next: Scan)
    requires ScanTable(pts) && ar < INT32_MAX
    requires !st.inRange && 1 <= st.idx <= |pts| && st.idx % 2 == 1
    requires st.npt == pts[st.idx - 1] && (st.idx >= 3 ==> pts[st.idx - 2] < ar)
    ensures Consistent(pts, next, ar)
    ensures st.idx <= next.idx
  {
    var inr, npt, idx := false, st.npt, st.idx;
    while ar >= npt
      invariant st.idx <= idx <= |pts|
      invariant idx % 2 == 1 && npt == pts[idx - 1]
      invariant idx >= 3 ==> pts[idx - 2] < ar
      decreases |pts| - idx
    {
      npt := pts[idx];
      idx := idx + 1;
      if ar <= npt {
        inr := true;
        break;
      }
      npt := pts[idx];
      idx := idx + 1;
    }
    next := Scan(inr, npt, idx);
  }

  /** A probe between the two bounds of a pair is selected. */
  lemma Hit(pts: seq<int>, i: nat, x: int)
    requires i % 2 == 0 && i + 1 < |pts| && pts[i] <= x <= pts[i + 1]
    ensures InPts(pts, x)
  {
    assert InPair(pts, i / 2, x);
  }

  /** A probe below the low bound at slot `i` and above everything before
      it is in no pair. */
  lemma Miss(pts: seq<int>, i: nat, x: int)
    requires NonDecreasing(pts)
    requires i % 2 == 0 && i < |pts| && x < pts[i]
    requires i >= 2 ==> pts[i - 1] < x
    ensures !InPts(pts, x)
  {
    forall k | 0 <= k && 2 * k + 1 < |pts|
      ensures !InPair(pts, k, x)
    {
      if 2 * k < i {
        assert pts[2 * k + 1] <= pts[i - 1];
      } else {
        assert pts[i] <= pts[2 * k];
      }
    }
  }

  /** The scan over a whole non-decreasing probe sequence selects exactly the
      probes a fresh linear search of the table would. */
  method ScanProbes(pts: seq<int>, probes: seq<int>) returns (sel: seq<bool>)
    requires ScanTable(pts)
    requires forall i :: 0 <= i < |probes| ==> probes[i] < INT32_MAX
    requires forall i, j :: 0 <= i <= j < |probes| ==> probes[i] <= probes[j]
    ensures |sel| == |probes|
    ensures forall i :: 0 <= i < |probes| ==> (sel[i] <==> InPts(pts, probes[i]))
  {
    var st := Start(pts);
    ghost var prev := pts[0] - 1;
    if |probes| > 0 && probes[0] < prev {
      prev := probes[0];
    }
    sel := [];
    var i := 0;
    while i < |probes|
      invariant 0 <= i <= |probes|
      invariant |sel| == i
      invariant Consistent(pts, st, prev)
      invariant forall j :: i <= j < |probes| ==> prev <= probes[j]
      invariant forall j :: 0 <= j < i ==> (sel[j] <==> InPts(pts, probes[j]))
    {
      st := Advance(pts, st, prev, probes[i]);
      prev := probes[i];
      sel := sel + [st.inRange];
      i := i + 1;
    }
  }

  /** The token parses to a range holding `x`. */
  predicate InToken(tok: string, x: int) {
    ParseRange(tok).Ok? && ParseRange(tok).value.low <= x <= ParseRange(tok).value.high
  }

  /** From range tokens to per-probe selection: either the first token's
      error, or for each probe whether one of the tokens' ranges (every read,
      given no tokens) contains it. */
  method SelectReads(toks: seq<string>, probes: seq<int>) returns (r: Result<seq<bool>>)
    requires forall i :: 0 <= i < |probes| ==> probes[i] < INT32_MAX
    requires forall i, j :: 0 <= i <= j < |probes| ==> probes[i] <= probes[j]
    ensures r.Err? <==> exists i :: 0 <= i < |toks| && ParseRange(toks[i]).Err?
    ensures r.Err? ==> BuildTable(toks).Err? && r.error == BuildTable(toks).error
    ensures r.Ok? ==> |r.value| == |probes|
    ensures r.Ok? ==> forall i :: 0 <= i < |probes| ==>
      (r.value[i] <==>
        if |toks| == 0 then 1 <= probes[i]
        else exists t :: 0 <= t < |toks| && InToken(toks[t], probes[i]))
  {
    var table := BuildTable(toks);
    if table.Err? {
      return Err(table.error);
    }
    var sel := ScanProbes(table.value, probes);
    forall i | 0 <= i < |probes|
      ensures sel[i] <==>
        if |toks| == 0 then 1 <= probes[i]
        else exists t :: 0 <= t < |toks| && InToken(toks[t], probes[i])
    {
      BuildTableSelects(toks, probes[i]);
    }
    return Ok(sel);
  }
}

=== FILE: range_table.dfy ===
/** The read-selection table `pts`: parsed pairs sorted by low bound, merged
    when they overlap or touch, flattened to `low, high, low, high, ...` and
    closed by a single INT32_MAX sentinel. Without range arguments the table
    is `[1, INT32_MAX]` (every read) and has no sentinel. */
module RangeTable {
  import opened CInt
  import opened Ranges
  import opened RangeParse

  /** Insertion into a low-sorted list; stands in for one step of `qsort`. */
  function Insert(r: Range, s: seq<Range>): (t: seq<Range>)
    requires SortedByLow(s)
    ensures SortedByLow(t)
    ensures multiset(t) == multiset(s) + multiset{r}
    ensures |t| > 0 && (t[0] == r || (|s| > 0 && t[0] == s[0]))
  {
    if |s| == 0 then [r]
    else if r.low <= s[0].low then
      ConsSorted(r, s);
      [r] + s
    else
      assert s == [s[0]] + s[1..];
      var rest := Insert(r, s[1..]);
      ConsSorted(s[0], rest);
      [s[0]] + rest
  }

  lemma ConsSorted(x: Range, t: seq<Range>)
    requires SortedByLow(t)
    requires |t| > 0 ==> x.low <= t[0].low
    ensures SortedByLow([x] + t)
  {
    var u := [x] + t;
    forall i, j | 0 <= i <= j < |u|
      ensures u[i].low <= u[j].low
    {
      if 0 < i {
        assert u[i] == t[i - 1] && u[j] == t[j - 1];
      } else if 0 < j {
        assert u[j] == t[j - 1];
        assert t[0].low <= t[j - 1].low;
      }
    }
  }

  /** `qsort(pts, reps/2, sizeof(int64), ORDER)`: the pairs ordered by their
      low bound (`ORDER` compares only the first `int` of each 8-byte pair). */
  function SortByLow(rs: seq<Range>): (s: seq<Range>)
    ensures SortedByLow(s)
    ensures multiset(s) == multiset(rs)
  {
    if |rs| == 0 then []
    else
      assert rs == [rs[0]] + rs[1..];
      Insert(rs[0], SortByLow(rs[1..]))
  }

  /** Validity only depends on which pairs are present, not their order. */
  lemma AllValidPermutation(a: seq<Range>, b: seq<Range>)
    requires AllValid(a) && multiset(a) == multiset(b)
    ensures AllValid(b)
  {
    forall i | 0 <= i < |b|
      ensures ValidRange(b[i])
    {
      assert b[i] in multiset(a);
      var j :| 0 <= j < |a| && a[j] == b[i];
    }
  }

  /** The left fold of the merge loop: the next pair joins the last emitted
      one when `last.high >= next.low - 1`, keeping the larger high bound;
      otherwise it is emitted as a new pair. */
  function Merge(rs: seq<Range>): (m: seq<Range>)
    requires SortedByLow(rs) && AllValid(rs)
    ensures Canonical(m)
    ensures |m| <= |rs|
    ensures |rs| > 0 ==> |m| > 0 && m[|m| - 1].low <= rs[|rs| - 1].low
    decreases |rs|
  {
    if |rs| == 0 then []
    else
      var acc := Merge(rs[..|rs| - 1]);
      var r := rs[|rs| - 1];
      MergeStep(acc, r)
  }

  function MergeStep(acc: seq<Range>, r: Range): (m: seq<Range>)
    requires Canonical(acc) && ValidRange(r)
    requires |acc| > 0 ==> acc[|acc| - 1].low <= r.low
    ensures Canonical(m)
    ensures |m| == |acc| || |m| == |acc| + 1
    ensures |m| > 0 && m[|m| - 1].low <= r.low
  {
    if |acc| > 0 && acc[|acc| - 1].high >= r.low - 1 then
      var last := acc[|acc| - 1];
      var high := if r.high > last.high then r.high else last.high;
      acc[..|acc| - 1] + [Range(last.low, high)]
    else
      acc + [r]
  }

  lemma CoveredSnoc(s: seq<Range>, r: Range, x: int)
    ensures Covered(s + [r], x) <==> Covered(s, x) || r.low <= x <= r.high
  {
    if Covered(s, x) {
      var i :| 0 <= i < |s| && s[i].low <= x <= s[i].high;
      assert (s + [r])[i] == s[i];
    }
    if r.low <= x <= r.high {
      assert (s + [r])[|s|] == r;
    }
    if Covered(s + [r], x) {
      var i :| 0 <= i < |s + [r]| && (s + [r])[i].low <= x <= (s + [r])[i].high;
      if i < |s| {
        assert (s + [r])[i] == s[i];
      }
    }
  }

  /** One merge step adds exactly the indices of the new pair. */
  lemma MergeStepCovers(acc: seq<Range>, r: Range, x: int)
    requires Canonical(acc) && ValidRange(r)
    requires |acc| > 0 ==> acc[|acc| - 1].low <= r.low
    ensures Covered(MergeStep(acc, r), x) <==> Covered(acc, x) || r.low <= x <= r.high
  {
    if |acc| > 0 && acc[|acc| - 1].high >= r.low - 1 {
      var last := acc[|acc| - 1];
      var high := if r.high > last.high then r.high else last.high;
      var init := acc[..|acc| - 1];
      assert acc == init + [last];
      CoveredSnoc(init, last, x);
      CoveredSnoc(init, Range(last.low, high), x);
    } else {
      CoveredSnoc(acc, r, x);
    }
  }

  /** Merging keeps exactly the indices the pairs select. */
  lemma {:induction false} MergeCovers(rs: seq<Range>)
    requires SortedByLow(rs) && AllValid(rs)
    ensures SameCoverage(Merge(rs), rs)
    decreases |rs|
  {
    if |rs| > 0 {
      var init := rs[..|rs| - 1];
      var r := rs[|rs| - 1];
      MergeCovers(init);
      assert rs == init + [r];
      forall x
        ensures Covered(Merge(rs), x) <==> Covered(rs, x)
      {
        MergeStepCovers(Merge(init), r, x);
        CoveredSnoc(init, r, x);
      }
    }
  }

  /** Any two low-sorted inputs selecting the same indices merge to the same
      list; so however the unstable sort orders pairs with equal low bounds,
      and whatever order the arguments came in, the result is the same. */
  lemma MergeOrderIndependent(s1: seq<Range>, s2: seq<Range>)
    requires SortedByLow(s1) && AllValid(s1)
    requires SortedByLow(s2) && AllValid(s2)
    requires SameCoverage(s1, s2)
    ensures Merge(s1) == Merge(s2)
  {
    MergeCovers(s1);
    MergeCovers(s2);
    CanonicalUnique(Merge(s1), Merge(s2));
  }

  /** Every low-sorted arrangement of the parsed pairs gives the same merge
      as the one `SortByLow` picks. */
  lemma AnySortMergesAlike(rs: seq<Range>, s: seq<Range>)
    requires AllValid(rs)
    requires SortedByLow(s) && multiset(s) == multiset(rs)
    ensures AllValid(s) && AllValid(SortByLow(rs))
    ensures Merge(s) == Merge(SortByLow(rs))
  {
    var t := SortByLow(rs);
    AllValidPermutation(rs, s);
    AllValidPermutation(rs, t);
    PermutationSameCoverage(s, t);
    MergeOrderIndependent(s, t);
  }

  /** Merging an already merged list changes nothing. */
  lemma MergeIdempotent(rs: seq<Range>)
    requires SortedByLow(rs) && AllValid(rs)
    ensures SortedByLow(Merge(rs)) && AllValid(Merge(rs))
    ensures Merge(Merge(rs)) == Merge(rs)
  {
    var m := Merge(rs);
    CanonicalIsSorted(m);
    MergeCovers(m);
    CanonicalUnique(Merge(m), m);
  }

  /** The pairs written out as consecutive `low, high` slots. */
  function Flatten(rs: seq<Range>): (f: seq<int>)
    ensures |f| == 2 * |rs|
    ensures forall k :: 0 <= k < |rs| ==> f[2 * k] == rs[k].low && f[2 * k + 1] == rs[k].high
  {
    if |rs| == 0 then []
    else
      var rest := Flatten(rs[1..]);
      assert forall k :: 1 <= k < |rs| ==> rs[1..][k - 1] == rs[k];
      [rs[0].low, rs[0].high] + rest
  }

  /** Pair `k` of a flat table holds `x`. */
  predicate InPair(pts: seq<int>, k: int, x: int) {
    0 <= k && 2 * k + 1 < |pts| && pts[2 * k] <= x <= pts[2 * k + 1]
  }

  /** `x` lies in one of the table's pairs; a trailing unpaired sentinel
      selects nothing. */
  ghost predicate InPts(pts: seq<int>, x: int) {
    exists k :: InPair(pts, k, x)
  }

  predicate NonDecreasing(pts: seq<int>) {
    forall i, j :: 0 <= i <= j < |pts| ==> pts[i] <= pts[j]
  }

  /** What the forward scan needs of `pts`: a positive first slot, values
      that never decrease, and INT32_MAX in the last slot so that any probe
      below INT32_MAX stops before the end. */
  predicate ScanTable(pts: seq<int>) {
    && |pts| >= 1
    && pts[0] >= 1
    && NonDecreasing(pts)
    && pts[|pts| - 1] == INT32_MAX
  }

  /** Indices the user asked for: the union of the pairs, or every read when
      no range argument was given. */
  ghost predicate Requested(rs: seq<Range>, x: int) {
    if |rs| == 0 then 1 <= x <= INT32_MAX else Covered(rs, x)
  }

  /** The table built from the parsed pairs. Its size never exceeds the
      `2 * argc` ints allocated for it (`argc` counts the program name and the
      `.las` file besides the range tokens). */
  function Table(rs: seq<Range>): (pts: seq<int>)
    requires AllValid(rs)
    ensures ScanTable(pts)
    ensures |pts| <= 2 * (|rs| + 2)
  {
    if |rs| == 0 then [1, INT32_MAX]
    else
      var s := SortByLow(rs);
      AllValidPermutation(rs, s);
      var m := Merge(s);
      FlatTable(m);
      Flatten(m) + [INT32_MAX]
  }

  /** A canonical list flattened and closed by the sentinel is a scan table
      whose pairs select exactly the list's indices. */
  lemma FlatTable(m: seq<Range>)
    requires Canonical(m) && |m| > 0
    ensures ScanTable(Flatten(m) + [INT32_MAX])
    ensures forall x :: InPts(Flatten(m) + [INT32_MAX], x) <==> Covered(m, x)
  {
    var pts := Flatten(m) + [INT32_MAX];
    FlatSorted(m);
    forall x
      ensures InPts(pts, x) <==> Covered(m, x)
    {
      if InPts(pts, x) {
        var k :| InPair(pts, k, x);
        assert pts[2 * k] == m[k].low && pts[2 * k + 1] == m[k].high;
      }
      if Covered(m, x) {
        var k :| 0 <= k < |m| && m[k].low <= x <= m[k].high;
        assert InPair(pts, k, x);
      }
    }
  }

  lemma {:induction false} FlatSorted(m: seq<Range>)
    requires Canonical(m)
    ensures NonDecreasing(Flatten(m) + [INT32_MAX])
    decreases |m|
  {
    if |m| > 0 {
      var tail := Flatten(m[1..]) + [INT32_MAX];
      assert Canonical(m[1..]) by {
        assert forall i :: 0 <= i < |m[1..]| ==> m[1..][i] == m[i + 1];
      }
      FlatSorted(m[1..]);
      assert Flatten(m) + [INT32_MAX] == [m[0].low, m[0].high] + tail;
      assert ValidRange(m[0]);
      assert m[0].high <= tail[0] by {
        if |m| > 1 {
          assert m[0].high + 2 <= m[1].low;
          assert tail[0] == m[1..][0].low;
        }
      }
      ConsNonDecreasing(m[0].low, m[0].high, tail);
    }
  }

  lemma ConsNonDecreasing(a: int, b: int, t: seq<int>)
    requires |t| > 0 && a <= b <= t[0] && NonDecreasing(t)
    ensures NonDecreasing([a, b] + t)
  {
    var u := [a, b] + t;
    forall i, j | 0 <= i <= j < |u|
      ensures u[i] <= u[j]
    {
      if j >= 2 {
        assert u[j] == t[j - 2];
        assert t[0] <= t[j - 2];
      }
      if i >= 2 {
        assert u[i] == t[i - 2];
      }
    }
  }

  /** The table selects exactly the requested indices. */
  lemma TableSelects(rs: seq<Range>)
    requires AllValid(rs)
    ensures forall x :: InPts(Table(rs), x) <==> Requested(rs, x)
  {
    if |rs| == 0 {
      forall x
        ensures InPts(Table(rs), x) <==> Requested(rs, x)
      {
        if 1 <= x <= INT32_MAX {
          assert InPair(Table(rs), 0, x);
        }
      }
    } else {
      var s := SortByLow(rs);
      AllValidPermutation(rs, s);
      var m := Merge(s);
      FlatTable(m);
      MergeCovers(s);
      PermutationSameCoverage(s, rs);
    }
  }

  /** Argument lists selecting the same indices build the same table: the
      order of the arguments and overlaps among them do not matter. */
  lemma TableOrderIndependent(rs1: seq<Range>, rs2: seq<Range>)
    requires AllValid(rs1) && AllValid(rs2)
    requires |rs1| > 0 && |rs2| > 0
    requires SameCoverage(rs1, rs2)
    ensures Table(rs1) == Table(rs2)
  {
    var s1, s2 := SortByLow(rs1), SortByLow(rs2);
    AllValidPermutation(rs1, s1);
    AllValidPermutation(rs2, s2);
    PermutationSameCoverage(s1, rs1);
    PermutationSameCoverage(s2, rs2);
    MergeOrderIndependent(s1, s2);
  }

  /** From the range tokens to the table, or the first token's error. */
  function BuildTable(toks: seq<string>): (r: Result<seq<int>>)
    ensures r.Ok? ==> ScanTable(r.value) && |r.value| <= 2 * (|toks| + 2)
    ensures r.Ok? <==> ParseAll(toks).Ok?
    ensures r.Err? ==> r.error == ParseAll(toks).error
    ensures |toks| == 0 ==> r == Ok([1, INT32_MAX])
  {
    match ParseAll(toks)
    case Err(e) => Err(e)
    case Ok(rs) => Ok(Table(rs))
  }

  /** With the tokens parsed, the table selects a read index exactly when
      one of the tokens' ranges contains it (or every read, given none). */
  lemma BuildTableSelects(toks: seq<string>, x: int)
    requires BuildTable(toks).Ok?
    ensures InPts(BuildTable(toks).value, x) <==>
      if |toks| == 0 then 1 <= x <= INT32_MAX
      else exists i :: 0 <= i < |toks| && ParseRange(toks[i]).value.low <= x <= ParseRange(toks[i]).value.high
  {
    var rs := ParseAll(toks).value;
    TableSelects(rs);
    if Covered(rs, x) {
      var i :| 0 <= i < |rs| && rs[i].low <= x <= rs[i].high;
      assert ParseRange(toks[i]).value == rs[i];
    }
  }
}

=== FILE: ranges.dfy ===
/** Inclusive, 1-based read-index ranges and the canonical form the merge
    step produces: sorted, every range non-empty, and a gap of at least one
    unselected index between consecutive ranges. */
module Ranges {
  import opened CInt

  /** A pair `(b, e)` as stored in two consecutive slots of `pts`. */
  datatype Range = Range(low: int, high: int)

  /** What the argument parser guarantees of every pair it stores. */
  predicate ValidRange(r: Range) {
    1 <= r.low <= r.high <= INT32_MAX
  }

  predicate AllValid(rs: seq<Range>) {
    forall i :: 0 <= i < |rs| ==> ValidRange(rs[i])
  }

  /** `ORDER`: the difference of the two pairs' low bounds, computed in
      32-bit `int`. On valid pairs it cannot wrap, so its sign is the order of
      the low bounds and `qsort` orders by low bound alone. */
  function Order(x: Range, y: Range): (c: int)
    ensures IsInt32(c)
    ensures ValidRange(x) && ValidRange(y) ==>
      (c < 0 <==> x.low < y.low) && (c == 0 <==> x.low == y.low) && (c > 0 <==> x.low > y.low)
  {
    ToInt32(x.low - y.low)
  }

  /** The order `qsort` with comparator `ORDER` establishes: by low bound only. */
  predicate SortedByLow(rs: seq<Range>) {
    forall i, j :: 0 <= i <= j < |rs| ==> rs[i].low <= rs[j].low
  }

  /** Every pair valid, and any two pairs separated by at least one index
      that neither covers (`next.low >= prev.high + 2`). */
  predicate Canonical(rs: seq<Range>) {
    && AllValid(rs)
    && forall i, j :: 0 <= i < j < |rs| ==> rs[i].high + 2 <= rs[j].low
  }

  /** Read index `x` lies in one of the pairs. */
  ghost predicate Covered(rs: seq<Range>, x: int) {
    exists i :: 0 <= i < |rs| && rs[i].low <= x <= rs[i].high
  }

  /** Two pair lists select the same read indices. */
  ghost predicate SameCoverage(a: seq<Range>, b: seq<Range>) {
    forall x :: Covered(a, x) <==> Covered(b, x)
  }

  lemma CanonicalIsSorted(rs: seq<Range>)
    requires Canonical(rs)
    ensures SortedByLow(rs)
  {
    forall i, j | 0 <= i <= j < |rs|
      ensures rs[i].low <= rs[j].low
    {
      if i < j {
        assert rs[i].high + 2 <= rs[j].low;
      }
    }
  }

  /** In canonical form nothing below the first low bound is covered, and the
      tail covers exactly what lies above the first range. */
  lemma CanonicalTail(rs: seq<Range>)
    requires Canonical(rs) && |rs| > 0
    ensures forall x :: Covered(rs, x) ==> rs[0].low <= x
    ensures forall x :: Covered(rs[1..], x) <==> Covered(rs, x) && rs[0].high < x
    ensures Canonical(rs[1..])
  {
    forall x | Covered(rs, x)
      ensures rs[0].low <= x
    {
      var i :| 0 <= i < |rs| && rs[i].low <= x <= rs[i].high;
      if i > 0 {
        assert rs[0].high + 2 <= rs[i].low;
      }
    }
    forall x
      ensures Covered(rs[1..], x) <==> Covered(rs, x) && rs[0].high < x
    {
      if Covered(rs[1..], x) {
        var i :| 0 <= i < |rs[1..]| && rs[1..][i].low <= x <= rs[1..][i].high;
        assert rs[0].high + 2 <= rs[i + 1].low;
        assert rs[i + 1] == rs[1..][i];
      }
      if Covered(rs, x) && rs[0].high < x {
        var i :| 0 <= i < |rs| && rs[i].low <= x <= rs[i].high;
        assert i != 0;
        assert rs[1..][i - 1] == rs[i];
      }
    }
  }

  /** The canonical form is unique: two canonical lists covering the same
      indices are equal. So the merged table does not depend on the input
      order of the ranges, nor on how the sort breaks ties. */
  lemma {:induction false} CanonicalUnique(a: seq<Range>, b: seq<Range>)
    requires Canonical(a) && Canonical(b)
    requires SameCoverage(a, b)
    ensures a == b
    decreases |a|
  {
    if |a| == 0 || |b| == 0 {
      if |a| > 0 {
        FirstLowCovered(a);
        assert false;
      } else if |b| > 0 {
        FirstLowCovered(b);
        assert false;
      }
    } else {
      CanonicalTail(a);
      CanonicalTail(b);
      assert Covered(a, a[0].low);
      assert Covered(b, b[0].low);
      assert a[0].low == b[0].low;
      GapAfterFirst(a);
      GapAfterFirst(b);
      assert a[0].high >= b[0].high by {
        if a[0].high < b[0].high {
          assert false;
        }
      }
      assert b[0].high >= a[0].high by {
        if b[0].high < a[0].high {
          assert false;
        }
      }
      assert a[0] == b[0];
      assert SameCoverage(a[1..], b[1..]);
      CanonicalUnique(a[1..], b[1..]);
      assert a == [a[0]] + a[1..];
      assert b == [b[0]] + b[1..];
    }
  }

  lemma FirstLowCovered(rs: seq<Range>)
    requires |rs| > 0 && rs[0].low <= rs[0].high
    ensures Covered(rs, rs[0].low)
  {
  }

  /** The index right after the first range is a gap in canonical form. */
  lemma GapAfterFirst(rs: seq<Range>)
    requires Canonical(rs) && |rs| > 0
    ensures !Covered(rs, rs[0].high + 1)
  {
    forall i | 0 < i < |rs|
      ensures rs[0].high + 1 < rs[i].low
    {
      assert rs[0].high + 2 <= rs[i].low;
    }
  }

  /** Sequences holding the same pairs (in any order) cover the same indices. */
  lemma PermutationSameCoverage(a: seq<Range>, b: seq<Range>)
    requires multiset(a) == multiset(b)
    ensures SameCoverage(a, b)
  {
    forall x
      ensures Covered(a, x) <==> Covered(b, x)
    {
      if Covered(a, x) {
        var i :| 0 <= i < |a| && a[i].low <= x <= a[i].high;
        assert a[i] in multiset(b);
        var j :| 0 <= j < |b| && b[j] == a[i];
      }
      if Covered(b, x) {
        var i :| 0 <= i < |b| && b[i].low <= x <= b[i].high;
        assert b[i] in multiset(a);
        var j :| 0 <= j < |a| && a[j] == b[i];
      }
    }
  }
}

=== FILE: trace_buffer.dfy ===
/** The trace buffer of the record loop: its capacity in 16-bit entries,
    grown before each record's trace is read, and the width of one stored
    trace entry fixed by the file's trace spacing. */
module TraceBuffer {

  /** Entries allocated before the first record. */
  const INITIAL_CAPACITY: int := 1000

  /** Capacity after a record with `tlen` trace entries: unchanged when the
      trace fits, else `1.2 * tlen + 100` truncated (integer arithmetic here):
      on growth the capacity is at least 1.2 times the trace plus 98. */
  function Grow(tmax: int, tlen: int): (t: int)
    requires tmax >= 0
    ensures t >= tmax && t >= tlen
    ensures tlen <= tmax <==> t == tmax
    ensures tlen > tmax ==> t >= tlen + 100
    ensures tlen > tmax ==> 5 * t >= 6 * tlen + 490
  {
    if tlen > tmax then (6 * tlen) / 5 + 100 else tmax
  }

  /** Bytes per stored trace entry: one when the spacing is at most the
      crossover `xovr` (the `TRACE_XOVR` of the alignment library), else two. */
  function TraceWidth(tspace: int, xovr: int): (w: int)
    ensures w == 1 || w == 2
    ensures w == 1 <==> tspace <= xovr
  {
    if tspace <= xovr then 1 else 2
  }

  /** A trace of `tlen` entries of either width fits in `tmax` 16-bit slots
      once the capacity has been grown for it. */
  lemma TraceFits(tmax: int, tlen: int, tspace: int, xovr: int)
    requires tmax >= 0 && tlen >= 0
    ensures tlen * TraceWidth(tspace, xovr) <= 2 * Grow(tmax, tlen)
  {
    var g := Grow(tmax, tlen);
    assert tlen <= g;
    if TraceWidth(tspace, xovr) == 2 {
      assert tlen * 2 == tlen + tlen;
    }
  }
}
